=== FILE: README.md ===
# TooGoodToGo watcher: the poll → classify → dispatch engine in Dafny

This project models the per-account engine of the TooGoodToGo watcher, a Node.js program.
The engine refreshes each account's session on one timer and polls the account's favourite
businesses on another. It does so only while someone listens and only once a token has been
obtained. It classifies each business's stock change against the previous snapshot and
notifies every enabled channel about the interesting ones.

The model has seven modules:
- `Common` (common.dfy): `Option`/`Result`, account ids, JavaScript truthiness of a string, and the account id `"undefined"`.
- `Retry` (retry.dfy): one retry loop shared by the HTTP client's `retry.limit` and by RxJS `retry(n)`.
- `Api` (api.dfy), modelling lib/api.js:
  - the client's retry policy;
  - the request each call posts;
  - `login`'s refusal without a refresh token;
  - the session store, as a class whose methods `createSession`/`updateSession` replace or patch the stored session.
- `Notifier` (notifier.dfy), modelling lib/notifier.js:
  - the stock-transition classifier and `_.keyBy`;
  - `filterBusinesses`;
  - the channel fan-out;
  - the listener gate and the `"?"` case of `formatInterval`;
  - the `ChangeDetector` class, which keeps the per-account snapshot cache. Its `NotifyIfChanged` method runs the source's loop over the interesting businesses.
- `Poller` (poller.dfy), modelling lib/poller.js:
  - interval clamping and the stream-level retry;
  - the refresh stream;
  - the `combineLatest` join as a fold over source events;
  - the `PollPipeline` class, whose `Fire` step gates and performs the favourites fetch.
- `TelegramBot` (telegram_bot.dfy), modelling lib/telegram-bot.js:
  - the chat list operations (`_.unionBy`, `_.find` + `_.pull`) and the active-chat count;
  - `distinctUntilChanged` and the Telegram gate;
  - send-error routing and `/login` parsing (`split`, `trim`);
  - the `TelegramBot` class with `addChat`, `removeChat`, `startCommand`, `notifyTelegram` and `loginCommand`.
- `Accounts` (accounts.dfy), modelling index.js: the `email` dictionary, `login`'s lookup-or-insert (with an `indexOf` scan), and `watch`, which starts one pipeline per account as intended but, as written, stops at the first account with a working Telegram configuration and ends the process, so that no account polls once any account has one.

Behaviour of the code that a reader might not expect, modelled as written:
- The refresh interval is read from `api.authenticationIntervalInMS` (capital `S`). A value stored as `authenticationIntervalInMs` has no effect.
- The favourites endpoint is `item/v8/`.
- A failed or item-less favourites fetch emits nothing. It does not emit an empty list.
- The two `retry(2)` operators resubscribe to a promise that has already settled. They replay its outcome and send nothing. The only retransmissions are the HTTP client's: at most two, and only after a listed status code or a response-less failure whose error code is in the client's default retried list. A 413 is listed, but the client resends it only when the response carries a `Retry-After` delay; without one, a 413 ends the request after one transmission.
- A missing refresh token ends the account's loop (see Findings).
- `/login <email>` in the Telegram bot stores the credential email under an account named by the address itself (`<email>.api.credentials.email`), and starts `authByEmail` for that account. This is modelled as written.

Inputs the program reads from outside are parameters of the model:
- Configuration values.
- What the k-th transmission of a request yields, given as a function `attempt: nat -> Outcome`.
- A fresh UUID.
- The date formatter.

## Model

| member | source | states |
|---|---|---|
| Retry.RetryFrom | lib/api.js:19-23 | attempts stop at the first success or the first failure that is not retryable, or when the budget is spent; every earlier attempt failed retryably; the result is the last attempt's outcome |
| Retry.RetrySucceedsOnFirstSuccess | lib/api.js:19-23 | if attempt k is the first success within the budget, the retried request yields that value after k+1 attempts |
| Api.PostRetryPolicy | lib/api.js:19-23 | a POST is sent at most 3 times; a resend happens only after a listed status (401, 403, 408, 413, 429, 500, 502, 503, 504, 521, 522, 524) or a response-less failure with one of the client's default retried error codes (ETIMEDOUT, ECONNRESET, EADDRINUSE, ECONNREFUSED, EPIPE, ENOTFOUND, ENETUNREACH, EAI_AGAIN); any other status or error code, or a 413 without `Retry-After`, ends it after one attempt; every transmission but the last followed a retryable failure, and it stops before the third only on a success or a failure that is not retryable |
| Api.RetryAfterIsResent | lib/api.js:19-23 | a listed status with a `Retry-After` delay, 413 included, is resent: such a failure followed by a success takes two transmissions and yields the success |
| Api.AuthByEmailSendsCredentialEmail | lib/api.js:25-34 | `authByEmail` posts the credential email with the configured device type, "IOS" when none is configured |
| Api.FavoritesRequestFollowsRefresh | lib/api.js:69-86 | the favourites request carries `Bearer <current access token>`, the session's user id, `favorites_only` true and radius 200; after a refresh only the bearer token changes |
| Api.FavoritesRequestWithoutSession | lib/api.js:69-90 | with no stored session the request still goes out with `Bearer undefined` and no user id |
| Api.LoginRequest | lib/api.js:49-66 | `login` fails with "not logged in", building no request, exactly when the refresh token is missing or empty; otherwise it posts exactly the stored refresh token to `auth/v3/token/refresh` |
| Api.NoSessionIsNotLoggedIn | lib/api.js:49-55 | an account with no stored session (`getSession` yields `{}`) is refused by `login` |
| Api.SessionStore.constructor | lib/api.js:88-90 | the store starts from the sessions held in the configuration |
| Api.SessionStore.CreateSession | lib/api.js:92-102 | the account's session becomes exactly {userId, accessToken, refreshToken} of the login response; other accounts are untouched |
| Api.SessionStore.UpdateSession | lib/api.js:104-108 | only the access token changes; user id and refresh token keep their values |
| Api.SessionStore.Login | lib/api.js:49-67 | without a refresh token: throws, makes no request, changes nothing; otherwise the request count is the client's attempt count (at most 3); a failure leaves the sessions unchanged and a success patches only the access token |
| Api.SessionStore.AuthPoll | lib/api.js:36-47 | the polling exchange succeeds exactly when the client's request does, and a success stores the new session |
| Notifier.TransitionsPartition | lib/notifier.js:84-94 | every pair of previous and current stock levels is exactly one of the five transitions |
| Notifier.InterestingIffTransitionFlag | lib/notifier.js:78-95 | the if-chain decides each business by the one flag of its transition: unchanged by `showUnchanged`, a drop to 0 by `showDecreaseToZero` (never `showDecrease`), other drops by `showDecrease`, a rise from 0 by `showIncreaseFromZero`, other rises by `showIncrease`; the other four flags do not matter; a business missing from the baseline counts as stock 0 |
| Notifier.UpsertIds | lib/notifier.js:28 | storing a business under its id adds that id to the key set and no other |
| Notifier.UpsertKeepsUnique | lib/notifier.js:28 | storing a business keeps the keys unique |
| Notifier.UpsertLookup | lib/notifier.js:28 | after storing a business its id looks it up, and every other id looks up what it did before |
| Notifier.KeyBy | lib/notifier.js:28 | `_.keyBy`: one entry per id, holding the last business listed with that id, and the same set of ids as the list |
| Notifier.LookupFindsEntry | lib/notifier.js:71-72 | in a keyed snapshot each entry is what its id looks up |
| Notifier.LastWithIdAbsent | lib/notifier.js:28 | an id missing from the list has no entry |
| Notifier.FilterBusinesses | lib/notifier.js:68-76 | a business is kept exactly when it is in the new keyed snapshot and its transition from the baseline is enabled; kept entries keep the snapshot's order and unique ids |
| Notifier.FilterAgainstItself | lib/notifier.js:68-85 | against a baseline holding every entry unchanged, filtering keeps all entries when `showUnchanged` is on and none otherwise |
| Notifier.SameSnapshotTwice | lib/notifier.js:65-85 | the same list notified twice in a row: the second call reports every business through the unchanged branch |
| Notifier.DroppedBusinessLeavesBaseline | lib/notifier.js:28-65 | a business the new fetch no longer lists is gone from the new baseline, and no filter reports it against any baseline |
| Notifier.NewItemScenario | lib/notifier.js:28-76 | with A at 10 in the baseline and a fetch of A at 10 and B at 2, a filter showing only rises from 0 reports B alone, and the new baseline is [A, B] |
| Notifier.CallsEnabled | lib/notifier.js:42-62 | consulting a list of channels calls exactly the enabled ones of that list; no channel is called twice when the list has no repeats |
| Notifier.EveryChannelOrdered | lib/notifier.js:42-62 | every channel is consulted by the loop body |
| Notifier.FanoutEnabled | lib/notifier.js:42-62 | for one business each enabled channel is called exactly once and no disabled channel is called |
| Notifier.DispatchedEnabled | lib/notifier.js:36-63 | a round calls each enabled channel about each listed business and makes no other call; no call repeats for a list without repeats |
| Notifier.DispatchedAppend | lib/notifier.js:36-63 | one more loop iteration appends that business's fan-out |
| Notifier.EnabledChannelsCalledOnce | lib/notifier.js:36-76 | for every interesting business of a round, channel c is called about it iff c is enabled, and no call is made twice |
| Notifier.HasListenersIff | lib/notifier.js:15-25 | the listener gate is on iff the Telegram signal is on or one of the six channel flags is |
| Notifier.NoListenersOnlyTelegram | lib/notifier.js:15-62 | when the gate is off, only Telegram can be called by a round |
| Notifier.FormatInterval | lib/notifier.js:133-140 | the pickup text is "?" exactly when the business has no pickup interval |
| Notifier.ChangeDetector.constructor | lib/notifier.js:13 | the snapshot cache starts empty and nothing has been dispatched |
| Notifier.ChangeDetector.BaselineEntryIsFound | lib/notifier.js:72 | in a valid cache, every entry of an account's baseline is what the lookup by its own id finds, so each business is compared with its own previous entry |
| Notifier.ChangeDetector.NotifyIfChanged | lib/notifier.js:27-66 | classifies against the baseline as it was before the call; makes exactly the fan-out of the interesting businesses, in order; then the account's baseline becomes the whole new keyed snapshot, including entries that were filtered out; other accounts keep theirs |
| Poller.GetInterval | lib/poller.js:79-84 | never below the minimum; a finite value at or above the minimum is returned unchanged; a missing or non-finite value, or one below the minimum, yields the minimum |
| Poller.IntervalsRespectMinimums | lib/poller.js:7-41 | polling at least 15000 ms and refresh at least 3600000 ms apart; settings at or above those are taken as they are, under the keys `api.pollingIntervalInMs` and `api.authenticationIntervalInMS` |
| Poller.AuthenticationKeyIsCaseSensitive | lib/poller.js:17-20 | a refresh interval stored as `api.authenticationIntervalInMs` leaves the refresh at its minimum |
| Poller.StreamRetryReplays | lib/poller.js:24-55 | `retry(2)` over an already settled promise yields that same outcome; the resubscriptions send nothing |
| Poller.NotLoggedInEndsRefreshAsWritten | lib/poller.js:22-30 | as written, a "not logged in" tick ends the refresh stream: nothing after it is emitted |
| Poller.LoggedInLaterIsIgnoredAsWritten | lib/poller.js:22-30 | logged out on the first tick and refreshed on the second: as written nothing is emitted; corrected, the second tick's token is |
| Poller.AuthStreamEmitsEveryRefresh | lib/poller.js:22-30 | with failures skipped, the refresh stream works tick by tick: each tick emits its successful token and nothing else, whatever failed before |
| Poller.RunKeepsLatest | lib/poller.js:46-50 | the join holds, for each source, the value of that source's last event, and holds none exactly while that source has not fired |
| Poller.NoFetchBeforeAllSourcesFired | lib/poller.js:46-53 | until the gate, the poll timer and the refresh stream have each fired, nothing is combined and nothing is fetched |
| Poller.EveryEventAfterJoinCombines | lib/poller.js:46-53 | once joined, every further event of any source combines that event's value with the latest of the others, and leads to a fetch exactly when the latest gate value is true |
| Poller.PollPipeline.constructor | lib/poller.js:10-41 | a pipeline reads its two intervals from the account's configuration |
| Poller.PollPipeline.Authenticate | lib/poller.js:22-30 | corrected: one refresh tick: a token exactly when the account has a refresh token and the refresh request succeeds, in which case the token is the refresh response and the sessions change only in that account's access token; otherwise the sessions are unchanged and the tick is skipped |
| Poller.PollPipeline.Fire | lib/poller.js:46-61 | records the event in the join; fetches iff the combined value passes the gate; the request sent is the favourites request of the account's session as it is at that moment; no request when not fetched, at most 3 when fetched; emits exactly `response.items` when the response has them, and nothing after a failed or item-less fetch |
| TelegramBot.FirstWithIdAppend | lib/telegram-bot.js:252-255 | appending a chat does not change which chat is first for an id already present |
| TelegramBot.UniqueById | lib/telegram-bot.js:252-255 | `_.uniqBy`: ids become unique and no id is lost |
| TelegramBot.UniqueByIdKeepsFirst | lib/telegram-bot.js:252-255 | a chat survives `_.uniqBy` exactly when it is the first listed with its id |
| TelegramBot.UniqueByIdOfUnique | lib/telegram-bot.js:252-255 | a list with unique ids is left as it is |
| TelegramBot.AddChatKeepsOrder | lib/telegram-bot.js:245-255 | adding keeps every stored chat in place; a known id leaves the list unchanged (the stored chat is kept); a new id goes last; the id is then present exactly once |
| TelegramBot.FirstIndexOfId | lib/telegram-bot.js:262 | `_.find` picks the first chat with the id: every chat before the position has another id, and a position inside the list holds the id |
| TelegramBot.FirstIndexOfIdMisses | lib/telegram-bot.js:262-263 | `_.find` comes back empty exactly when no chat has the id |
| TelegramBot.RemoveFirstByIdLength | lib/telegram-bot.js:260-268 | an unknown id leaves the list unchanged; a known id removes exactly one chat |
| TelegramBot.RemoveFirstByIdShifts | lib/telegram-bot.js:260-268 | chats before the removed one stay in place and later ones move up by one |
| TelegramBot.RemoveKeepsOthers | lib/telegram-bot.js:260-268 | every chat with another id survives removal |
| TelegramBot.RemoveDropsId | lib/telegram-bot.js:260-268 | in a list with unique ids, no chat with the removed id survives, and nothing new appears |
| TelegramBot.RemoveKeepsUnique | lib/telegram-bot.js:260-268 | removal keeps the ids unique |
| TelegramBot.RemoveChatRemovesId | lib/telegram-bot.js:260-268 | in a list with unique ids, a chat survives removal exactly when its id differs, and the id set loses exactly that id |
| TelegramBot.DistinctUntilChanged | lib/telegram-bot.js:57 | no two consecutive outputs are equal; the first and the latest input values are output; the same values occur |
| TelegramBot.DistinctUntilChangedAppend | lib/telegram-bot.js:57 | a new value is emitted exactly when it differs from the value before it |
| TelegramBot.DistinctUntilChangedCount | lib/telegram-bot.js:57 | the output holds the first value plus one value per position whose value differs from its predecessor |
| TelegramBot.TelegramSignalFollowsCount | lib/telegram-bot.js:54-58 | the signal's latest value is "latest count > 0 and Telegram enabled for the account", with no repeats |
| TelegramBot.TelegramSignalIgnoresAccountAsWritten | lib/telegram-bot.js:54-58 | as written, unless an account literally named "undefined" enables Telegram, the signal is only ever false |
| TelegramBot.DistinctOfConstant | lib/telegram-bot.js:57 | a stream repeating one value emits it once |
| TelegramBot.SendErrorRemovesBlockedChat | lib/telegram-bot.js:74-79 | corrected: a 403 removes exactly the blocked chat from the sending account, leaves other accounts alone and publishes the account's new count; any other error changes nothing |
| TelegramBot.BlockedChatKeptAsWritten | lib/telegram-bot.js:74-79 | as written, a 403 from a real account's chat keeps the chat and publishes 0 |
| TelegramBot.Split | lib/telegram-bot.js:126 | `split(" ")` always yields at least one piece |
| TelegramBot.SplitThenJoin | lib/telegram-bot.js:126 | joining the pieces of `split(" ")` gives the text back |
| TelegramBot.JoinThenSplit | lib/telegram-bot.js:126 | splitting joined space-free words gives the words back |
| TelegramBot.SplitPiecesFree | lib/telegram-bot.js:126 | no piece of `split(" ")` holds a space |
| TelegramBot.LeadingSpaceIsMaximal | lib/telegram-bot.js:127 | the run `trim` cuts at the front is all white space and ends at a character that is not |
| TelegramBot.TrailingSpaceIsMaximal | lib/telegram-bot.js:127 | the run `trim` cuts at the back is all white space and starts after a character that is not |
| TelegramBot.TrimCutsWhitespace | lib/telegram-bot.js:127 | `trim` gives a slice of the text with only white space cut off at either end, and no white space at either end |
| TelegramBot.LoginEmailOfWords | lib/telegram-bot.js:126-127 | a message of space-free words yields its second word when that word has no white space at either end |
| TelegramBot.LoginEmailTakesSecondWord | lib/telegram-bot.js:125-128 | `/login a@b.c …` yields the second word |
| TelegramBot.TrimOfTrimmed | lib/telegram-bot.js:127 | text with no white space at either end is its own trim |
| TelegramBot.LoginWithoutArgument | lib/telegram-bot.js:125-141 | a command with no space yields no address |
| TelegramBot.Deliveries | lib/telegram-bot.js:61-66 | one message per chat, in the list's order, to that chat's id |
| TelegramBot.TelegramBot.constructor | lib/telegram-bot.js:8 | the active-chat subject starts with the count read under the account id "undefined" |
| TelegramBot.TelegramBot.AddChat | lib/telegram-bot.js:245-258 | the account's list becomes the union by id with the chat; the chat's id is then present exactly once; the account's new count is published |
| TelegramBot.TelegramBot.RemoveChat | lib/telegram-bot.js:260-268 | the list is rewritten only when the account has one holding the id; the account's count is published either way |
| TelegramBot.TelegramBot.Start | lib/telegram-bot.js:103-123 | subscribes the chat, then re-sends the last message to it if there is one |
| TelegramBot.TelegramBot.NotifyTelegram | lib/telegram-bot.js:61-66 | remembers the message and sends it once to each stored chat of the account, in order; with no chat list it sends nothing |
| TelegramBot.TelegramBot.OnSendError | lib/telegram-bot.js:68-81 | corrected routing: the effect is exactly `SendError` for the sending account |
| TelegramBot.TelegramBot.LoginCommand | lib/telegram-bot.js:125-153 | without an address: replies, stores nothing, sends nothing; with one: stores it as the credential email of the account named by the address, posts `authByEmail` for it, and keeps the polling id of a successful response |
| Accounts.FirstIndex | index.js:52 | `indexOf` gives -1 exactly when the address is absent; otherwise the first position holding it |
| Accounts.IndexOf | index.js:52 | the scan returns `indexOf`'s position |
| Accounts.Registry.constructor | index.js:51 | the registry starts from the configuration's `email` dictionary, whose UUIDs are unique keys |
| Accounts.Registry.Login | index.js:48-68 | no address: nothing changes and no login starts; a known address: the first UUID mapping to it is reused and nothing changes; a new address: one entry is appended under the fresh UUID, which gets the defaults with its credential email set, and every other entry is kept |
| Accounts.Registry.WatchAsWritten | index.js:77-86 | as written: pipelines start in key order and stop before the first account whose Telegram bot is enabled and has a token, since creating that bot throws; the run aborts exactly when such an account exists anywhere, and an abort ends the process before any started pipeline ticks, so then no account polls; without one, every account starts |
| Accounts.FirstReadyAt | index.js:79-80 | the loop stops at the first Telegram-ready account, or runs to the end when there is none |
| Accounts.TelegramReadyAnywhereAbortsAsWritten | index.js:79-80 | as written, `watch` aborts if and only if some account, in any position, is Telegram-ready |
| Accounts.Registry.Watch | index.js:77-86 | as intended: one pipeline per key of the `email` dictionary, in key order, none twice |
| Accounts.RegisterThenFind | index.js:52-61 | after a registration the dictionary holds one more entry, and looking the address up again finds the new UUID |

## Left out

- Notification adapters are left out: console, desktop, e-mail, Gotify, ntfy and IFTTT. A channel call is an `Invocation` record. Message rendering is also left out: the price `minor_units / 100` is floating point, and `formatDate` depends on the locale and the clock. `formatDate` is a parameter of `FormatInterval`.
- lib/console-login.js is left out: it is interactive prompting and network I/O. `Accounts.Registry.Login` returns the account to log in as.
- Real time and concurrency are left out: timer periods, overlapping `mergeMap` fetches and scheduler order. The join is a fold over a sequence of source events, and each refresh tick is one call.
- HTTP transport is left out: cookie jar, headers, back-off timing. A request is its path, body and Authorization header. What the k-th transmission yields is the `attempt` parameter. A `Retry-After` header is reduced to whether it gives a positive delay; its value, and the delay the client waits, are left out.
- Telegraf wiring is left out. Commands are registered on the per-account map rather than the bot, and handler signatures do not match their registration; what that does to `watch` is modelled by `Accounts.Registry.WatchAsWritten` (see Findings). Reply texts, `setMyCommands`, `configCommand`, `loginContinueCommand` and `setOption` are left out too. `setOption` reads one configuration path and writes another.
- The configuration store (lib/config.js) is not part of this model. Configuration values are maps. `uuidv1` is a parameter that is not yet a key.
- `watch --config` (merging a JSON argument into the configuration) is left out.
- Notifier.ChangeDetector.NotifyIfChanged: a channel call is assumed to return. In the code a call that throws synchronously (for instance `notifyTelegram` for an account with Telegram enabled and stored chats but no bot token, where `bot[emailUUID]` is undefined, or IFTTT with no `webhookEvents`) aborts the loop, skips the remaining calls and leaves the baseline as it was; the model always makes every call and replaces the baseline.
- Notifier.KeyBy: JavaScript lists integer-like object keys in ascending numeric order before other keys. The model keeps the keyed snapshot in first-insertion order, so for numeric item ids it does not capture the order in which `filterBusinesses` reports businesses.
- TelegramBot.RemoveFirstById: `_.pull` removes the chat object `_.find` returned, by identity. The model removes the first chat with the id, which is the same thing because the stored list holds distinct objects.
- TelegramBot.TelegramBot.constructor: `numberOfActiveChats$` is one subject shared by every account. The model records what is published to it, not which account each count came from.
- Poller.PollPipeline.Authenticate: this is the corrected tick. In the code a tick without a refresh token does not skip: `login` throws outside `catchError`, the refresh stream errors and the account's polling ends; that behaviour is `Poller.AuthStreamAsWritten` and `Poller.NotLoggedInEndsRefreshAsWritten` (see Findings). Also, a refresh response body that is falsy would be dropped by the `filter`; the model treats every successful refresh response as a token.

## Findings

| source | as written | input that shows it | evidently intended | confidence | as-written member | corrected member |
|---|---|---|---|---|---|---|
| lib/telegram-bot.js:76 | on a 403 send error, `removeChat(chatId)` is called without the account, so it looks up and republishes the chats of account "undefined" | a chat of account U blocks the bot and no account is named "undefined": the chat stays in U's list and 0 is published | remove the chat from the sending account and publish that account's count | high, not executed | TelegramBot.BlockedChatKeptAsWritten | TelegramBot.SendErrorRemovesBlockedChat |
| lib/telegram-bot.js:56 | `isEnabled()` is called without the account, so the flag is read under "undefined.notifications.telegram.enabled" | U enables Telegram and has a chat (count 1): the signal is `[false]` | the signal is true while the count is positive and Telegram is enabled for the account | high, not executed | TelegramBot.TelegramSignalIgnoresAccountAsWritten | TelegramBot.TelegramSignalFollowsCount |
| lib/poller.js:24 | `login` throws "not logged in" while the tick's inner stream is being built, outside `catchError`, so the refresh stream errors and the account's pipeline ends | ticks [not logged in, refresh succeeds]: nothing is emitted, so the account never polls again | log and skip the tick, like a failed refresh, so a later login resumes polling | medium, not executed | Poller.LoggedInLaterIsIgnoredAsWritten | Poller.AuthStreamEmitsEveryRefresh |
| index.js:80 | `watch` awaits `createTelegramBot` before each account's pipeline; for an account with Telegram enabled and a bot token, `createTelegramBot` calls `startCommand(emailUUID)` (lib/telegram-bot.js:89), whose `addChat` reads `context.chat.id` of the account id string and throws, so the await rejects and the loop ends | accounts [U1, U2] where U2 has Telegram enabled and a bot token: U1's pipeline is subscribed, then the rejection reaches the top-level `await` and ends the process before U1's first tick, so no account ever polls | start every account's pipeline | high, not executed | Accounts.TelegramReadyAnywhereAbortsAsWritten | Accounts.Registry.Watch |

=== FILE: accounts.dfy ===
/** The command-line entry point's account registry: the `email` dictionary maps each
    account's UUID to its login address; `login` looks an address up or registers it under a
    fresh UUID, and `watch` starts one pipeline per registered account. */
module Accounts {
  import opened Common

  type Uuid = AccountId

  /** One key/value pair of the `email` dictionary, in the dictionary's key order. */
  datatype EmailEntry = EmailEntry(uuid: Uuid, email: string)

  /** An account's configuration subtree: the credential email and every other setting. */
  datatype AccountConfig = AccountConfig(credentialsEmail: Option<string>, settings: map<string, string>)

  function Uuids(entries: seq<EmailEntry>): seq<Uuid> {
    seq(|entries|, i requires 0 <= i < |entries| => entries[i].uuid)
  }

  /** `Object.values(uuidDic)`. */
  function Addresses(entries: seq<EmailEntry>): seq<string> {
    seq(|entries|, i requires 0 <= i < |entries| => entries[i].email)
  }

  predicate UniqueUuids(entries: seq<EmailEntry>) {
    forall i, j :: 0 <= i < j < |entries| ==> entries[i].uuid != entries[j].uuid
  }

  /** `Array.prototype.indexOf`: the first position holding `x`, or -1. */
  function FirstIndex(xs: seq<string>, x: string): (r: int)
    ensures -1 <= r < |xs|
    ensures r == -1 <==> x !in xs
    ensures r >= 0 ==> xs[r] == x && forall j :: 0 <= j < r ==> xs[j] != x
  {
    if xs == [] then -1
    else if xs[0] == x then 0
    else
      var rest := FirstIndex(xs[1..], x);
      assert xs == [xs[0]] + xs[1..];
      if rest == -1 then -1 else rest + 1
  }

  /** The `indexOf` scan over the addresses, position by position. */
  method IndexOf(xs: seq<string>, x: string) returns (idx: int)
    ensures idx == FirstIndex(xs, x)
  {
    var i := 0;
    while i < |xs|
      invariant 0 <= i <= |xs|
      invariant forall j :: 0 <= j < i ==> xs[j] != x
    {
      if xs[i] == x {
        return i;
      }
      i := i + 1;
    }
    return -1;
  }

  /** What `login` hands over to the interactive login, if anything. */
  datatype LoginStart = NoEmail | LoginAs(uuid: Uuid)

  /** The registry: the `email` dictionary, each account's configuration, and the
      per-account defaults new accounts are copied from. */
  class Registry {
    var entries: seq<EmailEntry>
    var accounts: map<Uuid, AccountConfig>
    const defaults: AccountConfig

    ghost predicate Valid()
      reads this
    {
      UniqueUuids(entries)
    }

    constructor (entries: seq<EmailEntry>, accounts: map<Uuid, AccountConfig>, defaults: AccountConfig)
      requires UniqueUuids(entries)
      ensures Valid()
      ensures this.entries == entries && this.accounts == accounts && this.defaults == defaults
    {
      this.entries := entries;
      this.accounts := accounts;
      this.defaults := defaults;
    }

    /** The `login` command: with no address, report and do nothing; with a registered
        address, reuse the first UUID mapping to it and change nothing; otherwise register
        the address under `freshId` (a UUID that is not yet a key) and give the new account
        the defaults with its credential email set. */
    method Login(email: Option<string>, freshId: Uuid) returns (r: LoginStart)
      requires Valid()
      requires freshId !in Uuids(entries)
      modifies this
      ensures Valid()
      ensures !Truthy(email) ==> r == NoEmail && unchanged(this)
      ensures Truthy(email) && email.value in Addresses(old(entries)) ==>
        var i := FirstIndex(Addresses(entries), email.value);
        unchanged(this) && 0 <= i && r == LoginAs(entries[i].uuid)
      ensures Truthy(email) && email.value !in Addresses(old(entries)) ==>
        r == LoginAs(freshId)
        && entries == old(entries) + [EmailEntry(freshId, email.value)]
        && accounts == old(accounts)[freshId := defaults.(credentialsEmail := email)]
    {
      if !Truthy(email) {
        return NoEmail;
      }
      var idx := IndexOf(Addresses(entries), email.value);
      if idx > -1 {
        return LoginAs(entries[idx].uuid);
      }
      assert forall i :: 0 <= i < |entries| ==> entries[i].uuid != freshId by {
        assert forall i :: 0 <= i < |entries| ==> Uuids(entries)[i] == entries[i].uuid;
      }
      entries := entries + [EmailEntry(freshId, email.value)];
      accounts := accounts[freshId := defaults.(credentialsEmail := email)];
      r := LoginAs(freshId);
    }

    /** `watch` as written: the accounts are taken in key order, and each one first awaits
        its Telegram bot. For an account in `telegramReady` (Telegram enabled and a bot
        token set) creating the bot throws, because `startCommand` is called with the account
        id in place of a message context; the await rethrows and no later pipeline starts.
        The rejection reaches the top-level `await` and ends the process (`aborted`) before
        any timer of an already subscribed pipeline fires, so then no account polls at all. */
    method WatchAsWritten(telegramReady: set<Uuid>) returns (started: seq<Uuid>, aborted: bool)
      requires Valid()
      ensures started == Uuids(entries)[..FirstReady(Uuids(entries), telegramReady)]
      ensures forall i :: 0 <= i < |started| ==> started[i] !in telegramReady
      ensures aborted <==> FirstReady(Uuids(entries), telegramReady) < |entries|
      ensures aborted <==> exists i :: 0 <= i < |entries| && entries[i].uuid in telegramReady
      ensures aborted ==> entries[|started|].uuid in telegramReady
      ensures !aborted ==> started == Uuids(entries)
    {
      started := [];
      var i := 0;
      while i < |entries|
        invariant 0 <= i <= |entries|
        invariant started == Uuids(entries[..i])
        invariant forall j :: 0 <= j < i ==> entries[j].uuid !in telegramReady
      {
        if entries[i].uuid in telegramReady {
          break;
        }
        started := started + [entries[i].uuid];
        i := i + 1;
      }
      assert Uuids(entries[..i]) == Uuids(entries)[..i];
      FirstReadyAt(Uuids(entries), telegramReady, i);
      aborted := i < |entries|;
    }

    /** `watch` as intended: one pipeline per key of the `email` dictionary, in key order. */
    method Watch() returns (started: seq<Uuid>)
      requires Valid()
      ensures started == Uuids(entries)
      ensures forall i, j :: 0 <= i < j < |started| ==> started[i] != started[j]
    {
      started := [];
      var i := 0;
      while i < |entries|
        invariant 0 <= i <= |entries|
        invariant started == Uuids(entries[..i])
      {
        started := started + [entries[i].uuid];
        i := i + 1;
      }
      assert entries[..i] == entries;
    }
  }

  /** The position of the first account in `ready`, or the length when there is none. */
  function FirstReady(uuids: seq<Uuid>, ready: set<Uuid>): (n: nat)
    ensures n <= |uuids|
  {
    if uuids == [] || uuids[0] in ready then 0 else 1 + FirstReady(uuids[1..], ready)
  }

  /** A position is the first ready one when nothing before it is ready and it is ready or
      the end. */
  lemma {:induction false} FirstReadyAt(uuids: seq<Uuid>, ready: set<Uuid>, i: nat)
    requires i <= |uuids| && forall j :: 0 <= j < i ==> uuids[j] !in ready
    requires i < |uuids| ==> uuids[i] in ready
    ensures FirstReady(uuids, ready) == i
  {
    if i > 0 {
      FirstReadyAt(uuids[1..], ready, i - 1);
    }
  }

  /** As written, `watch` aborts exactly when some account, anywhere in the dictionary, is
      Telegram-ready: one such account keeps every account from polling. */
  lemma {:induction false} TelegramReadyAnywhereAbortsAsWritten(uuids: seq<Uuid>, ready: set<Uuid>)
    ensures FirstReady(uuids, ready) < |uuids| <==> exists i :: 0 <= i < |uuids| && uuids[i] in ready
  {
    if uuids != [] && uuids[0] !in ready {
      TelegramReadyAnywhereAbortsAsWritten(uuids[1..], ready);
      if exists i :: 0 <= i < |uuids| && uuids[i] in ready {
        var i :| 0 <= i < |uuids| && uuids[i] in ready;
        assert uuids[1..][i - 1] in ready;
      }
      if exists i :: 0 <= i < |uuids[1..]| && uuids[1..][i] in ready {
        var i :| 0 <= i < |uuids[1..]| && uuids[1..][i] in ready;
        assert uuids[i + 1] in ready;
      }
    }
  }

  /** A registration grows the dictionary by exactly one entry and makes the address
      known, so logging in with it again reuses the new UUID. */
  lemma RegisterThenFind(entries: seq<EmailEntry>, email: string, freshId: Uuid)
    requires email !in Addresses(entries)
    ensures var after := entries + [EmailEntry(freshId, email)];
      |after| == |entries| + 1
      && FirstIndex(Addresses(after), email) == |entries|
      && after[|entries|].uuid == freshId
  {
    var after := entries + [EmailEntry(freshId, email)];
    assert Addresses(after) == Addresses(entries) + [email];
    assert Addresses(after)[|entries|] == email;
    forall j | 0 <= j < |entries| ensures Addresses(after)[j] != email {
      assert Addresses(entries)[j] == Addresses(after)[j];
    }
  }
}

=== FILE: api.dfy ===
/** The remote API client: the HTTP retry policy, the request each call posts, and the
    stored session that `createSession` and `updateSession` maintain per account. */
module Api {
  import opened Common
  import opened Retry

  /** The shared HTTP client retries a failed request at most this many times. */
  const RETRY_LIMIT: nat := 2
  /** The HTTP methods the client retries. */
  const RETRY_METHODS: set<string> := {"GET", "POST", "PUT", "HEAD", "DELETE", "OPTIONS", "TRACE"}
  /** The response status codes the client retries. */
  const RETRY_STATUS_CODES: set<int> := {401, 403, 408, 413, 429, 500, 502, 503, 504, 521, 522, 524}

  /** The error codes of response-less failures the client retries: the client library's
      default `retry.errorCodes`, which the configuration leaves as they are. */
  const RETRY_ERROR_CODES: set<string> :=
    {"ETIMEDOUT", "ECONNRESET", "EADDRINUSE", "ECONNREFUSED", "EPIPE", "ENOTFOUND", "ENETUNREACH", "EAI_AGAIN"}

  /** "Payload Too Large": listed, but the client's delay calculation refuses to resend it
      unless the response says when to retry. */
  const PAYLOAD_TOO_LARGE: int := 413

  /** Why one transmission failed: an HTTP status, or a failure with no response, named by its
      error code (a TLS or body-parsing failure has a code outside the retried list).
      `retryAfter` says whether the response carries a `Retry-After` header giving a positive
      delay; a zero, past or unparsable value counts as none. No request timeout is
      configured, so the client honours any such delay. */
  datatype HttpError = HttpStatus(status: int, retryAfter: bool) | TransportError(code: string)

  /** Whether the client retries a request sent with `verb` that failed with `e`: the method
      and the status or error code must be listed, and a 413 also needs a `Retry-After`. */
  predicate Retryable(verb: string, e: HttpError) {
    verb in RETRY_METHODS
    && match e
       case HttpStatus(status, retryAfter) =>
         status in RETRY_STATUS_CODES && (status != PAYLOAD_TOO_LARGE || retryAfter)
       case TransportError(code) => code in RETRY_ERROR_CODES
  }

  /** A POST through the shared client; `attempt(k)` is what its k-th transmission yields. */
  function Post<T>(attempt: nat -> Outcome<T, HttpError>): Retried<T, HttpError> {
    RetryFrom(attempt, e => Retryable("POST", e), RETRY_LIMIT, 0)
  }

  /** A POST is transmitted at most three times. Every transmission but the last followed a
      failure the policy lists, and the request stops early only on a success or on a failure
      it does not list: a status or an error code outside the lists, or a 413 without
      `Retry-After`, ends the request at once. */
  lemma PostRetryPolicy<T>(attempt: nat -> Outcome<T, HttpError>)
    ensures 1 <= Post(attempt).attempts <= RETRY_LIMIT + 1 == 3
    ensures Post(attempt).outcome == attempt(Post(attempt).attempts - 1)
    ensures forall k :: 0 <= k < Post(attempt).attempts - 1 ==>
      attempt(k).Failed? && Retryable("POST", attempt(k).error)
    ensures Post(attempt).attempts < 3 ==>
      Post(attempt).outcome.Done? || !Retryable("POST", Post(attempt).outcome.error)
    ensures Post(attempt).attempts > 1 ==>
      attempt(0).Failed?
      && (attempt(0).error.HttpStatus? ==> attempt(0).error.status in RETRY_STATUS_CODES)
      && (attempt(0).error.TransportError? ==> attempt(0).error.code in RETRY_ERROR_CODES)
    ensures attempt(0).Failed? && attempt(0).error.HttpStatus? && attempt(0).error.status !in RETRY_STATUS_CODES ==>
      Post(attempt) == Retried(attempt(0), 1)
    ensures attempt(0) == Failed(HttpStatus(PAYLOAD_TOO_LARGE, false)) ==> Post(attempt) == Retried(attempt(0), 1)
    ensures attempt(0).Failed? && attempt(0).error.TransportError? && attempt(0).error.code !in RETRY_ERROR_CODES ==>
      Post(attempt) == Retried(attempt(0), 1)
  {
  }

  /** A listed status with a `Retry-After`, 413 included, is resent while the budget lasts: a
      first failure of that kind followed by a success takes two transmissions and succeeds. */
  lemma RetryAfterIsResent<T>(attempt: nat -> Outcome<T, HttpError>, status: int)
    requires status in RETRY_STATUS_CODES
    requires attempt(0) == Failed(HttpStatus(status, true)) && attempt(1).Done?
    ensures Post(attempt) == Retried(attempt(1), 2)
  {
  }

  // ---------------------------------------------------------------- sessions

  /** The stored session; `getSession` yields `{}` (every field missing) when none is stored. */
  datatype Session = Session(userId: Option<string>, accessToken: Option<string>, refreshToken: Option<string>)

  const EMPTY_SESSION := Session(None, None, None)

  /** The body of a successful `authByRequestPollingId` response, as far as it is read. */
  datatype LoginResponse = LoginResponse(userId: string, accessToken: string, refreshToken: string)

  /** The body of a successful `token/refresh` response, as far as it is read. */
  datatype TokenResponse = TokenResponse(accessToken: string)

  function GetSession(sessions: map<AccountId, Session>, account: AccountId): Session {
    if account in sessions then sessions[account] else EMPTY_SESSION
  }

  /** The session `createSession` stores for a login response. */
  function NewSession(login: LoginResponse): Session {
    Session(Some(login.userId), Some(login.accessToken), Some(login.refreshToken))
  }

  /** The session after `updateSession`: only the access token is written. */
  function Refreshed(s: Session, token: TokenResponse): Session {
    s.(accessToken := Some(token.accessToken))
  }

  // ---------------------------------------------------------------- requests

  datatype Origin = Origin(latitude: Option<real>, longitude: Option<real>)

  datatype Body =
    | AuthByEmailBody(deviceType: string, email: string)
    | RefreshBody(refreshToken: string)
    | FavoritesBody(favoritesOnly: bool, origin: Origin, radius: int, userId: Option<string>)

  /** A POST request: its path below the API prefix, its JSON body, its Authorization header. */
  datatype Request = Request(path: string, body: Body, authorization: Option<string>)

  const DEFAULT_DEVICE_TYPE := "IOS"
  const FAVORITES_RADIUS := 200

  /** The configured device type, or the default when none is configured. */
  function DeviceType(configured: Option<string>): string {
    if configured.Some? then configured.value else DEFAULT_DEVICE_TYPE
  }

  function AuthByEmailRequest(email: string, deviceType: Option<string>): Request {
    Request("auth/v3/authByEmail", AuthByEmailBody(DeviceType(deviceType), email), None)
  }

  function RefreshRequest(refreshToken: string): Request {
    Request("auth/v3/token/refresh", RefreshBody(refreshToken), None)
  }

  /** The text a template literal gives a possibly missing token. */
  function TemplateText(s: Option<string>): string {
    if s.Some? then s.value else "undefined"
  }

  function FavoritesRequest(session: Session, origin: Origin): Request {
    Request("item/v8/", FavoritesBody(true, origin, FAVORITES_RADIUS, session.userId),
            Some("Bearer " + TemplateText(session.accessToken)))
  }

  /** `authByEmail` sends the stored credential email and the device type, "IOS" unless configured. */
  lemma AuthByEmailSendsCredentialEmail(email: string, deviceType: Option<string>)
    ensures AuthByEmailRequest(email, deviceType).body.email == email
    ensures deviceType.None? ==> AuthByEmailRequest(email, deviceType).body.deviceType == "IOS"
    ensures deviceType.Some? ==> AuthByEmailRequest(email, deviceType).body.deviceType == deviceType.value
  {
  }

  /** The favourites request of a session whose access token was just refreshed carries the new
      token as a bearer credential and otherwise equals the request of the old session: the same
      user id, favourites only, radius 200. */
  lemma FavoritesRequestFollowsRefresh(s: Session, token: TokenResponse, origin: Origin)
    ensures FavoritesRequest(Refreshed(s, token), origin)
         == FavoritesRequest(s, origin).(authorization := Some("Bearer " + token.accessToken))
    ensures FavoritesRequest(s, origin).body == FavoritesBody(true, origin, 200, s.userId)
  {
  }

  /** With no stored session the favourites request still goes out, with the header "Bearer undefined". */
  lemma FavoritesRequestWithoutSession(origin: Origin)
    ensures FavoritesRequest(EMPTY_SESSION, origin).authorization == Some("Bearer undefined")
    ensures FavoritesRequest(EMPTY_SESSION, origin).body.userId.None?
  {
    assert "Bearer " + "undefined" == "Bearer undefined";
  }

  // ---------------------------------------------------------------- login

  datatype AuthError = NotLoggedIn(account: AccountId)

  /** `login`: without a (truthy) refresh token it throws "not logged in" and builds no
      request; otherwise it posts exactly the stored refresh token to the refresh endpoint. */
  function LoginRequest(account: AccountId, session: Session): (r: Result<Request, AuthError>)
    ensures r.Failure? <==> !Truthy(session.refreshToken)
    ensures r.Failure? ==> r.error == NotLoggedIn(account)
    ensures r.Success? ==> r.value.path == "auth/v3/token/refresh" && r.value.authorization.None?
                           && r.value.body == RefreshBody(session.refreshToken.value)
  {
    if Truthy(session.refreshToken) then Success(RefreshRequest(session.refreshToken.value))
    else Failure(NotLoggedIn(account))
  }

  /** An account without a stored session is never logged in, so `login` refuses it. */
  lemma NoSessionIsNotLoggedIn(sessions: map<AccountId, Session>, account: AccountId)
    requires account !in sessions
    ensures LoginRequest(account, GetSession(sessions, account)) == Failure(NotLoggedIn(account))
  {
  }

  /** What a call to `login` comes to: thrown before any request, rejected after the client's
      retries, or a fresh access token. */
  datatype LoginOutcome =
    | LoginThrew(reason: AuthError)
    | RefreshFailed(error: HttpError, attempts: nat)
    | RefreshSucceeded(token: TokenResponse, attempts: nat)

  /** The sessions of all accounts (`<account>.api.session` in the configuration). */
  class SessionStore {
    var sessions: map<AccountId, Session>

    constructor (initial: map<AccountId, Session>)
      ensures sessions == initial
    {
      sessions := initial;
    }

    function Current(account: AccountId): Session
      reads this
    {
      GetSession(sessions, account)
    }

    /** `createSession`: replaces the account's session by the one the login response gives. */
    method CreateSession(account: AccountId, login: LoginResponse)
      modifies this
      ensures sessions == old(sessions)[account := NewSession(login)]
      ensures Current(account) == Session(Some(login.userId), Some(login.accessToken), Some(login.refreshToken))
    {
      sessions := sessions[account := NewSession(login)];
    }

    /** `updateSession`: writes only the access token; user id and refresh token stay. */
    method UpdateSession(account: AccountId, token: TokenResponse)
      modifies this
      ensures sessions == old(sessions)[account := Refreshed(old(Current(account)), token)]
      ensures Current(account).accessToken == Some(token.accessToken)
      ensures Current(account).userId == old(Current(account)).userId
      ensures Current(account).refreshToken == old(Current(account)).refreshToken
    {
      sessions := sessions[account := Refreshed(Current(account), token)];
    }

    /** `login`: refreshes the access token through the client, whose k-th transmission of the
        refresh request yields `attempt(k)`; `requests` counts the transmissions. */
    method Login(account: AccountId, attempt: nat -> Outcome<TokenResponse, HttpError>)
      returns (r: LoginOutcome, requests: nat)
      modifies this
      ensures r.LoginThrew? <==> !Truthy(old(Current(account)).refreshToken)
      ensures r.LoginThrew? ==> r.reason == NotLoggedIn(account) && requests == 0 && sessions == old(sessions)
      ensures Truthy(old(Current(account)).refreshToken) ==> requests == Post(attempt).attempts <= 3
      ensures r.RefreshFailed? ==> sessions == old(sessions) && Post(attempt).outcome == Failed(r.error)
      ensures r.RefreshSucceeded? ==>
        Post(attempt).outcome == Done(r.token)
        && sessions == old(sessions)[account := Refreshed(old(Current(account)), r.token)]
    {
      var request := LoginRequest(account, Current(account));
      if request.Failure? {
        return LoginThrew(request.error), 0;
      }
      var sent := Post(attempt);
      requests := sent.attempts;
      match sent.outcome
      case Failed(e) =>
        r := RefreshFailed(e, sent.attempts);
      case Done(token) =>
        UpdateSession(account, token);
        r := RefreshSucceeded(token, sent.attempts);
    }

    /** `authPoll`: exchanges a polling id for a session; on success `createSession` stores it. */
    method AuthPoll(account: AccountId, attempt: nat -> Outcome<LoginResponse, HttpError>)
      returns (r: Option<LoginResponse>)
      modifies this
      ensures r.None? <==> Post(attempt).outcome.Failed?
      ensures r.None? ==> sessions == old(sessions)
      ensures r.Some? ==> Post(attempt).outcome == Done(r.value)
                          && sessions == old(sessions)[account := NewSession(r.value)]
    {
      var sent := Post(attempt);
      match sent.outcome
      case Failed(_) =>
        r := None;
      case Done(login) =>
        CreateSession(account, login);
        r := Some(login);
    }
  }
}

=== FILE: common.dfy ===
/** Values shared by every part of the watcher model. */
module Common {

  datatype Option<+T> = None | Some(value: T)

  datatype Result<+T, +E> = Success(value: T) | Failure(error: E)

  /** Accounts are keyed by an opaque id (a UUID string) throughout the configuration. */
  type AccountId = string

  /** The account id a configuration path is built from when the account argument is
      missing: a template literal renders `undefined` as this text. */
  const UNDEFINED_ACCOUNT: AccountId := "undefined"

  /** JavaScript truthiness of an optional string: a missing value and "" are falsy. */
  predicate Truthy(s: Option<string>) {
    s.Some? && s.value != ""
  }
}

=== FILE: notifier.dfy ===
/** The change detector and dispatcher: classify each freshly fetched favourite against the
    account's previous snapshot, notify every enabled channel about the interesting ones, and
    keep the new snapshot as the next baseline. */
module Notifier {
  import opened Common

  type ItemId = string

  datatype PickupInterval = PickupInterval(start: string, end: string)

  /** One favourite as the API lists it: `item.item_id`, `display_name`,
      `item.price_including_taxes.minor_units`, `items_available`, `pickup_interval`. */
  datatype Business = Business(
    itemId: ItemId,
    displayName: string,
    priceMinorUnits: int,
    itemsAvailable: nat,
    pickupInterval: Option<PickupInterval>)

  /** The account's `messageFilter` settings. */
  datatype MessageFilter = MessageFilter(
    showUnchanged: bool,
    showDecrease: bool,
    showDecreaseToZero: bool,
    showIncrease: bool,
    showIncreaseFromZero: bool)

  // ---------------------------------------------------------------- classification

  /** The five stock transitions, one per message-filter flag. */
  datatype Transition = Unchanged | DecreaseToZero | Decrease | IncreaseFromZero | Increase

  /** The condition that defines each transition, independently of any order of tests. */
  predicate IsTransition(previousStock: nat, currentStock: nat, t: Transition) {
    match t
    case Unchanged => currentStock == previousStock
    case DecreaseToZero => currentStock == 0 < previousStock
    case Decrease => 0 < currentStock < previousStock
    case IncreaseFromZero => previousStock == 0 < currentStock
    case Increase => 0 < previousStock < currentStock
  }

  /** The flag of the filter that a transition consults. */
  function Consulted(filter: MessageFilter, t: Transition): bool {
    match t
    case Unchanged => filter.showUnchanged
    case DecreaseToZero => filter.showDecreaseToZero
    case Decrease => filter.showDecrease
    case IncreaseFromZero => filter.showIncreaseFromZero
    case Increase => filter.showIncrease
  }

  /** A business missing from the previous snapshot counts as having had no stock. */
  function PreviousStock(previous: Option<Business>): nat {
    if previous.Some? then previous.value.itemsAvailable else 0
  }

  /** `hasInterestingChange`: the fixed-priority chain of tests, one flag per branch. */
  function HasInterestingChange(current: Business, previous: Option<Business>, filter: MessageFilter): bool {
    var currentStock := current.itemsAvailable;
    var previousStock := PreviousStock(previous);
    if currentStock == previousStock then filter.showUnchanged
    else if currentStock == 0 then filter.showDecreaseToZero
    else if currentStock < previousStock then filter.showDecrease
    else if previousStock == 0 then filter.showIncreaseFromZero
    else filter.showIncrease
  }

  /** Every pair of stock levels is exactly one transition. */
  lemma TransitionsPartition(previousStock: nat, currentStock: nat)
    ensures exists t :: IsTransition(previousStock, currentStock, t)
    ensures forall t, u :: IsTransition(previousStock, currentStock, t) && IsTransition(previousStock, currentStock, u) ==> t == u
  {
    if currentStock == previousStock {
      assert IsTransition(previousStock, currentStock, Unchanged);
    } else if currentStock == 0 {
      assert IsTransition(previousStock, currentStock, DecreaseToZero);
    } else if currentStock < previousStock {
      assert IsTransition(previousStock, currentStock, Decrease);
    } else if previousStock == 0 {
      assert IsTransition(previousStock, currentStock, IncreaseFromZero);
    } else {
      assert IsTransition(previousStock, currentStock, Increase);
    }
  }

  /** The chain decides each business by the one flag of its transition and by nothing else:
      an unchanged stock by `showUnchanged`, a drop to zero by `showDecreaseToZero` (never
      `showDecrease`), another drop by `showDecrease`, a rise from zero by
      `showIncreaseFromZero`, another rise by `showIncrease`; a business absent from the
      baseline is compared against a stock of 0. */
  lemma InterestingIffTransitionFlag(current: Business, previous: Option<Business>, filter: MessageFilter, t: Transition)
    requires IsTransition(PreviousStock(previous), current.itemsAvailable, t)
    ensures HasInterestingChange(current, previous, filter) == Consulted(filter, t)
    ensures previous.None? ==> IsTransition(0, current.itemsAvailable, t)
    ensures forall other: MessageFilter :: Consulted(other, t) == Consulted(filter, t) ==>
              HasInterestingChange(current, previous, other) == HasInterestingChange(current, previous, filter)
  {
  }

  // ---------------------------------------------------------------- keyed snapshots

  predicate UniqueIds(s: seq<Business>) {
    forall i, j :: 0 <= i < j < |s| ==> s[i].itemId != s[j].itemId
  }

  function Ids(s: seq<Business>): set<ItemId> {
    set b | b in s :: b.itemId
  }

  /** The entry of a keyed snapshot with the given id, if any. */
  function Lookup(keyed: seq<Business>, id: ItemId): Option<Business> {
    if keyed == [] then None
    else if keyed[0].itemId == id then Some(keyed[0])
    else Lookup(keyed[1..], id)
  }

  /** The last business of a list with the given id. */
  function LastWithId(businesses: seq<Business>, id: ItemId): Option<Business> {
    if businesses == [] then None
    else if businesses[|businesses| - 1].itemId == id then Some(businesses[|businesses| - 1])
    else LastWithId(businesses[..|businesses| - 1], id)
  }

  /** Stores `b` under its id: an existing key keeps its place and takes the new value,
      a new key goes last. */
  function Upsert(keyed: seq<Business>, b: Business): seq<Business> {
    if keyed == [] then [b]
    else if keyed[0].itemId == b.itemId then [b] + keyed[1..]
    else [keyed[0]] + Upsert(keyed[1..], b)
  }

  lemma ConsIds(x: Business, s: seq<Business>)
    ensures Ids([x] + s) == {x.itemId} + Ids(s)
  {
    assert forall b :: b in [x] + s <==> b == x || b in s;
  }

  lemma ConsUnique(x: Business, s: seq<Business>)
    requires UniqueIds(s) && x.itemId !in Ids(s)
    ensures UniqueIds([x] + s)
  {
    var r := [x] + s;
    forall i, j | 0 <= i < j < |r| ensures r[i].itemId != r[j].itemId {
      assert r[j] == s[j - 1];
      if i > 0 {
        assert r[i] == s[i - 1];
      } else {
        assert s[j - 1] in s;
      }
    }
  }

  /** The tail of a list with unique ids has unique ids, none of them the head's. */
  lemma TailUnique(s: seq<Business>)
    requires s != [] && UniqueIds(s)
    ensures UniqueIds(s[1..]) && s[0].itemId !in Ids(s[1..])
  {
    var t := s[1..];
    forall i, j | 0 <= i < j < |t| ensures t[i].itemId != t[j].itemId {
      assert t[i] == s[i + 1] && t[j] == s[j + 1];
    }
    forall c | c in t ensures c.itemId != s[0].itemId {
      var k :| 0 <= k < |t| && t[k] == c;
      assert s[k + 1] == c;
    }
  }

  /** Storing a business adds its id to the key set. */
  lemma {:induction false} UpsertIds(keyed: seq<Business>, b: Business)
    ensures Ids(Upsert(keyed, b)) == Ids(keyed) + {b.itemId}
  {
    if keyed == [] {
      ConsIds(b, []);
      assert Upsert(keyed, b) == [b] + [];
    } else {
      var head, tail := keyed[0], keyed[1..];
      assert keyed == [head] + tail;
      ConsIds(head, tail);
      if head.itemId == b.itemId {
        ConsIds(b, tail);
      } else {
        UpsertIds(tail, b);
        ConsIds(head, Upsert(tail, b));
      }
    }
  }

  /** Storing a business keeps the ids of a keyed snapshot unique. */
  lemma {:induction false} UpsertKeepsUnique(keyed: seq<Business>, b: Business)
    requires UniqueIds(keyed)
    ensures UniqueIds(Upsert(keyed, b))
  {
    if keyed != [] {
      var head, tail := keyed[0], keyed[1..];
      TailUnique(keyed);
      if head.itemId == b.itemId {
        ConsUnique(b, tail);
      } else {
        UpsertKeepsUnique(tail, b);
        UpsertIds(tail, b);
        ConsUnique(head, Upsert(tail, b));
      }
    }
  }

  /** After storing a business its id looks it up, and every other id looks up what it
      did before. */
  lemma {:induction false} UpsertLookup(keyed: seq<Business>, b: Business)
    ensures forall id :: Lookup(Upsert(keyed, b), id) == if id == b.itemId then Some(b) else Lookup(keyed, id)
  {
    var r := Upsert(keyed, b);
    if keyed == [] {
      assert r == [b] && r[1..] == [];
    } else if keyed[0].itemId == b.itemId {
      assert r[1..] == keyed[1..];
    } else {
      UpsertLookup(keyed[1..], b);
      assert r[1..] == Upsert(keyed[1..], b);
    }
  }

  /** `_.keyBy(businesses, "item.item_id")`: one entry per id, holding the last business
      listed with that id. */
  function KeyBy(businesses: seq<Business>): (r: seq<Business>)
    ensures UniqueIds(r)
    ensures Ids(r) == Ids(businesses)
    ensures forall id :: Lookup(r, id) == LastWithId(businesses, id)
  {
    if businesses == [] then []
    else
      var prefix := businesses[..|businesses| - 1];
      assert businesses == prefix + [businesses[|businesses| - 1]];
      assert Ids(businesses) == Ids(prefix) + {businesses[|businesses| - 1].itemId};
      UpsertIds(KeyBy(prefix), businesses[|businesses| - 1]);
      UpsertKeepsUnique(KeyBy(prefix), businesses[|businesses| - 1]);
      UpsertLookup(KeyBy(prefix), businesses[|businesses| - 1]);
      Upsert(KeyBy(prefix), businesses[|businesses| - 1])
  }

  /** In a snapshot with unique ids, every entry is what its id looks up. */
  lemma {:induction false} LookupFindsEntry(keyed: seq<Business>, b: Business)
    requires UniqueIds(keyed) && b in keyed
    ensures Lookup(keyed, b.itemId) == Some(b)
  {
    if keyed[0] != b {
      assert b in keyed[1..];
      LookupFindsEntry(keyed[1..], b);
    }
  }

  /** An id that a list does not contain has no entry. */
  lemma {:induction false} LastWithIdAbsent(businesses: seq<Business>, id: ItemId)
    requires id !in Ids(businesses)
    ensures LastWithId(businesses, id).None?
  {
    if businesses != [] {
      var prefix := businesses[..|businesses| - 1];
      assert Ids(prefix) <= Ids(businesses);
      LastWithIdAbsent(prefix, id);
    }
  }

  // ---------------------------------------------------------------- filtering

  /** Whether `r` lists some of the elements of `s`, in the same order. */
  predicate IsSubsequence<T(==)>(r: seq<T>, s: seq<T>)
    decreases |s|
  {
    r == [] || (s != [] && ((r[0] == s[0] && IsSubsequence(r[1..], s[1..])) || IsSubsequence(r, s[1..])))
  }

  /** `filterBusinesses`: the entries of the new keyed snapshot whose transition from the
      baseline the filter enables, each once, in the snapshot's key order. */
  function FilterBusinesses(keyed: seq<Business>, baseline: seq<Business>, filter: MessageFilter): (r: seq<Business>)
    ensures forall b :: b in r <==> b in keyed && HasInterestingChange(b, Lookup(baseline, b.itemId), filter)
    ensures IsSubsequence(r, keyed)
    ensures UniqueIds(keyed) ==> UniqueIds(r)
  {
    if keyed == [] then []
    else
      var rest := FilterBusinesses(keyed[1..], baseline, filter);
      assert keyed == [keyed[0]] + keyed[1..];
      if HasInterestingChange(keyed[0], Lookup(baseline, keyed[0].itemId), filter) then
        assert ([keyed[0]] + rest)[1..] == rest;
        [keyed[0]] + rest
      else rest
  }

  /** Filtering a snapshot against a baseline that holds every one of its entries unchanged
      keeps all of them when `showUnchanged` is on and none otherwise. */
  lemma {:induction false} FilterAgainstItself(keyed: seq<Business>, baseline: seq<Business>, filter: MessageFilter)
    requires forall b :: b in keyed ==> Lookup(baseline, b.itemId) == Some(b)
    ensures FilterBusinesses(keyed, baseline, filter) == if filter.showUnchanged then keyed else []
  {
    if keyed != [] {
      assert keyed[0] in keyed;
      forall b | b in keyed[1..] ensures Lookup(baseline, b.itemId) == Some(b) {
        assert b in keyed;
      }
      FilterAgainstItself(keyed[1..], baseline, filter);
      assert keyed == [keyed[0]] + keyed[1..];
    }
  }

  /** Notifying twice in a row about the same list: the second call sees every business
      unchanged, so it reports all of them when `showUnchanged` is on and none otherwise. */
  lemma SameSnapshotTwice(businesses: seq<Business>, filter: MessageFilter)
    ensures FilterBusinesses(KeyBy(businesses), KeyBy(businesses), filter)
         == if filter.showUnchanged then KeyBy(businesses) else []
  {
    var keyed := KeyBy(businesses);
    forall b | b in keyed ensures Lookup(keyed, b.itemId) == Some(b) {
      LookupFindsEntry(keyed, b);
    }
    FilterAgainstItself(keyed, keyed, filter);
  }

  /** A business that the new fetch no longer lists leaves the baseline, and no filter
      against any baseline reports it. */
  lemma DroppedBusinessLeavesBaseline(businesses: seq<Business>, id: ItemId)
    requires id !in Ids(businesses)
    ensures Lookup(KeyBy(businesses), id).None?
    ensures forall baseline, filter, b :: b in FilterBusinesses(KeyBy(businesses), baseline, filter) ==> b.itemId != id
  {
    LastWithIdAbsent(businesses, id);
    var keyed := KeyBy(businesses);
    forall baseline, filter, b | b in FilterBusinesses(keyed, baseline, filter) ensures b.itemId != id {
      assert b in keyed;
      assert b.itemId in Ids(keyed);
    }
  }

  /** With A at 10 in the baseline and a fetch of A at 10 and B at 2, a filter that shows only
      rises from zero reports B alone, and the baseline becomes {A: 10, B: 2}. */
  lemma NewItemScenario(a: Business, b: Business)
    requires a.itemId == "A" && a.itemsAvailable == 10
    requires b.itemId == "B" && b.itemsAvailable == 2
    ensures FilterBusinesses(KeyBy([a, b]), KeyBy([a]), MessageFilter(false, false, false, false, true)) == [b]
    ensures KeyBy([a, b]) == [a, b]
  {
    assert a.itemId != b.itemId by {
      assert a.itemId[0] == 'A' && b.itemId[0] == 'B';
    }
    assert [a, b][..1] == [a];
    assert [a][..0] == [];
    assert KeyBy([a]) == [a];
    assert Upsert([a], b) == [a] + Upsert([], b);
    assert KeyBy([a, b]) == [a, b];
    UpsertLookup([], a);
    UpsertLookup([a], b);
  }

  // ---------------------------------------------------------------- dispatch

  datatype Channel = Console | Desktop | Telegram | Ifttt | Gotify | Email | Ntfy

  /** The `enabled` flag of each of the account's notification channels. */
  datatype Notifications = Notifications(
    console: bool, desktop: bool, telegram: bool, ifttt: bool, gotify: bool, email: bool, ntfy: bool)

  function ChannelEnabled(n: Notifications, c: Channel): bool {
    match c
    case Console => n.console
    case Desktop => n.desktop
    case Telegram => n.telegram
    case Ifttt => n.ifttt
    case Gotify => n.gotify
    case Email => n.email
    case Ntfy => n.ntfy
  }

  /** One call of a channel's send capability, about one business, for one account. */
  datatype Invocation = Invocation(account: AccountId, channel: Channel, business: Business)

  /** The order in which the source consults the channel flags. */
  const CHANNEL_ORDER: seq<Channel> := [Console, Desktop, Telegram, Ifttt, Gotify, Email, Ntfy]

  predicate Distinct<T(==)>(s: seq<T>) {
    forall i, j :: 0 <= i < j < |s| ==> s[i] != s[j]
  }

  /** The calls that consulting `channels` in turn makes about one business. */
  function Calls(account: AccountId, b: Business, n: Notifications, channels: seq<Channel>): seq<Invocation> {
    if channels == [] then []
    else
      var last := channels[|channels| - 1];
      Calls(account, b, n, channels[..|channels| - 1])
      + (if ChannelEnabled(n, last) then [Invocation(account, last, b)] else [])
  }

  /** Consulting a list of channels calls exactly its enabled channels, each once when the
      list has no repeats. */
  lemma {:induction false} CallsEnabled(account: AccountId, b: Business, n: Notifications, channels: seq<Channel>)
    ensures forall inv :: inv in Calls(account, b, n, channels) <==>
      inv.account == account && inv.business == b && inv.channel in channels && ChannelEnabled(n, inv.channel)
    ensures Distinct(channels) ==> Distinct(Calls(account, b, n, channels))
  {
    if channels != [] {
      var prefix, last := channels[..|channels| - 1], channels[|channels| - 1];
      assert channels == prefix + [last];
      CallsEnabled(account, b, n, prefix);
    }
  }

  lemma EveryChannelOrdered(c: Channel)
    ensures c in CHANNEL_ORDER
  {
    match c
    case Console => assert CHANNEL_ORDER[0] == c;
    case Desktop => assert CHANNEL_ORDER[1] == c;
    case Telegram => assert CHANNEL_ORDER[2] == c;
    case Ifttt => assert CHANNEL_ORDER[3] == c;
    case Gotify => assert CHANNEL_ORDER[4] == c;
    case Email => assert CHANNEL_ORDER[5] == c;
    case Ntfy => assert CHANNEL_ORDER[6] == c;
  }

  /** The channel calls for one interesting business: the seven `enabled` tests of the
      loop body, in their order. */
  function Fanout(account: AccountId, b: Business, n: Notifications): seq<Invocation> {
    Calls(account, b, n, CHANNEL_ORDER)
  }

  /** One business is sent to every enabled channel exactly once and to no disabled one. */
  lemma FanoutEnabled(account: AccountId, b: Business, n: Notifications)
    ensures forall inv :: inv in Fanout(account, b, n) <==>
      inv.account == account && inv.business == b && ChannelEnabled(n, inv.channel)
    ensures Distinct(Fanout(account, b, n))
  {
    forall c: Channel ensures c in CHANNEL_ORDER {
      EveryChannelOrdered(c);
    }
    CallsEnabled(account, b, n, CHANNEL_ORDER);
  }

  /** The channel calls for a list of interesting businesses, business by business. */
  function Dispatched(account: AccountId, items: seq<Business>, n: Notifications): seq<Invocation> {
    if items == [] then []
    else Dispatched(account, items[..|items| - 1], n) + Fanout(account, items[|items| - 1], n)
  }

  /** A round calls each enabled channel about each listed business and makes no other call;
      for a list without repeats, no call is made twice. */
  lemma {:induction false} DispatchedEnabled(account: AccountId, items: seq<Business>, n: Notifications)
    ensures forall inv :: inv in Dispatched(account, items, n) <==>
      inv.account == account && inv.business in items && ChannelEnabled(n, inv.channel)
    ensures Distinct(items) ==> Distinct(Dispatched(account, items, n))
  {
    if items != [] {
      var prefix, last := items[..|items| - 1], items[|items| - 1];
      assert items == prefix + [last];
      DispatchedEnabled(account, prefix, n);
      FanoutEnabled(account, last, n);
    }
  }

  /** Dispatching one more business appends its fan-out. */
  lemma DispatchedAppend(account: AccountId, items: seq<Business>, i: nat, n: Notifications)
    requires i < |items|
    ensures Dispatched(account, items[..i + 1], n) == Dispatched(account, items[..i], n) + Fanout(account, items[i], n)
  {
    assert items[..i + 1][..i] == items[..i];
  }

  /** For every interesting business of a notification round, each enabled channel is called
      exactly once and each disabled channel never. */
  lemma EnabledChannelsCalledOnce(account: AccountId, keyed: seq<Business>, baseline: seq<Business>,
                                  filter: MessageFilter, n: Notifications, c: Channel, b: Business)
    requires UniqueIds(keyed)
    requires b in FilterBusinesses(keyed, baseline, filter)
    ensures Invocation(account, c, b) in Dispatched(account, FilterBusinesses(keyed, baseline, filter), n)
            <==> ChannelEnabled(n, c)
    ensures Distinct(Dispatched(account, FilterBusinesses(keyed, baseline, filter), n))
  {
    var items := FilterBusinesses(keyed, baseline, filter);
    assert Distinct(items);
    DispatchedEnabled(account, items, n);
  }

  // ---------------------------------------------------------------- listener gate

  /** The channels whose `enabled` flag feeds the listener gate directly; Telegram feeds it
      through its active-chats signal instead. */
  const LISTENER_CHANNELS: set<Channel> := {Console, Desktop, Ifttt, Gotify, Email, Ntfy}

  /** `hasListeners$`: some of the six channel flags, or the Telegram signal, is on. */
  function HasListeners(n: Notifications, telegramActive: bool): bool {
    n.console || n.desktop || n.ifttt || n.gotify || n.email || n.ntfy || telegramActive
  }

  lemma HasListenersIff(n: Notifications, telegramActive: bool)
    ensures HasListeners(n, telegramActive) <==>
      telegramActive || exists c :: c in LISTENER_CHANNELS && ChannelEnabled(n, c)
  {
    if n.console { assert ChannelEnabled(n, Console); }
    if n.desktop { assert ChannelEnabled(n, Desktop); }
    if n.ifttt { assert ChannelEnabled(n, Ifttt); }
    if n.gotify { assert ChannelEnabled(n, Gotify); }
    if n.email { assert ChannelEnabled(n, Email); }
    if n.ntfy { assert ChannelEnabled(n, Ntfy); }
  }

  /** When the gate is off, the only channel a round could call is Telegram, whose dispatch
      reads its own `enabled` flag rather than the signal. */
  lemma NoListenersOnlyTelegram(account: AccountId, items: seq<Business>, n: Notifications, telegramActive: bool)
    requires !HasListeners(n, telegramActive)
    ensures forall inv :: inv in Dispatched(account, items, n) ==> inv.channel == Telegram
  {
    DispatchedEnabled(account, items, n);
  }

  // ---------------------------------------------------------------- message text

  /** `formatInterval`: "?" exactly when the business has no pickup interval; the dates
      themselves are formatted by `formatDate`. */
  function FormatInterval(b: Business, formatDate: string -> string): (r: string)
    ensures r == "?" <==> b.pickupInterval.None?
  {
    if b.pickupInterval.None? then "?"
    else
      var r := formatDate(b.pickupInterval.value.start) + " - " + formatDate(b.pickupInterval.value.end);
      assert |r| >= 3;
      r
  }

  // ---------------------------------------------------------------- the detector

  /** The per-account snapshot cache and the record of every channel call made. */
  class ChangeDetector {
    var cache: map<AccountId, seq<Business>>
    var invocations: seq<Invocation>

    ghost predicate Valid()
      reads this
    {
      forall account :: account in cache ==> UniqueIds(cache[account])
    }

    constructor ()
      ensures Valid() && cache == map[] && invocations == []
    {
      cache := map[];
      invocations := [];
    }

    /** The account's previous snapshot; an account seen for the first time has none. */
    function Baseline(account: AccountId): seq<Business>
      reads this
    {
      if account in cache then cache[account] else []
    }

    /** In a valid cache, every entry of a baseline is what the classification finds under
        its id, so each business is compared against its own previous entry. */
    lemma BaselineEntryIsFound(account: AccountId, b: Business)
      requires Valid() && b in Baseline(account)
      ensures Lookup(Baseline(account), b.itemId) == Some(b)
    {
      LookupFindsEntry(cache[account], b);
    }

    /** `notifyIfChanged`: classifies the fetched list against the baseline as it was before
        the call, calls every enabled channel for each interesting business, then replaces
        the whole baseline with the new keyed snapshot, filtered-out entries included. */
    method NotifyIfChanged(businesses: seq<Business>, account: AccountId, filter: MessageFilter, n: Notifications)
      requires Valid()
      modifies this
      ensures Valid()
      ensures cache == old(cache)[account := KeyBy(businesses)]
      ensures invocations == old(invocations)
        + Dispatched(account, FilterBusinesses(KeyBy(businesses), old(Baseline(account)), filter), n)
    {
      var businessesById := KeyBy(businesses);
      var baseline := if account in cache then cache[account] else [];
      var filtered := FilterBusinesses(businessesById, baseline, filter);
      var calls: seq<Invocation> := [];
      var i := 0;
      while i < |filtered|
        invariant 0 <= i <= |filtered|
        invariant unchanged(this)
        invariant calls == Dispatched(account, filtered[..i], n)
      {
        DispatchedAppend(account, filtered, i, n);
        calls := calls + Fanout(account, filtered[i], n);
        i := i + 1;
      }
      assert filtered[..i] == filtered;
      invocations := invocations + calls;
      cache := cache[account := businessesById];
    }
  }
}

=== FILE: poller.dfy ===
/** The per-account polling engine: a session refresh on one timer, a favourites poll on
    another, joined with the listener gate so that favourites are fetched only while someone
    listens and only once a session token has been obtained. */
module Poller {
  import opened Common
  import opened Retry
  import opened Api
  import opened Notifier

  // ---------------------------------------------------------------- intervals

  const MINIMAL_POLLING_INTERVAL: real := 15000.0
  const MINIMAL_AUTHENTICATION_INTERVAL: real := 3600000.0

  /** The configuration keys under the account, spelt as they are read (note the capital
      `S` of the second). */
  const POLLING_INTERVAL_KEY := ".api.pollingIntervalInMs"
  const AUTHENTICATION_INTERVAL_KEY := ".api.authenticationIntervalInMS"

  /** A configuration entry as `_.isFinite` sees it: a finite number, or anything else
      (NaN, an infinity, a string, an object). A missing entry is an absent key. */
  datatype ConfigValue = FiniteNumber(value: real) | OtherValue

  /** `getInterval`: the configured interval, raised to the minimum; the minimum when the
      entry is missing or not a finite number. */
  function GetInterval(config: map<string, ConfigValue>, path: string, minimum: real): (r: real)
    ensures r >= minimum
    ensures path in config && config[path].FiniteNumber? && config[path].value >= minimum ==> r == config[path].value
    ensures path !in config || config[path].OtherValue? || config[path].value <= minimum ==> r == minimum
  {
    if path in config && config[path].FiniteNumber? then
      if config[path].value > minimum then config[path].value else minimum
    else minimum
  }

  function PollingInterval(config: map<string, ConfigValue>, account: AccountId): real {
    GetInterval(config, account + POLLING_INTERVAL_KEY, MINIMAL_POLLING_INTERVAL)
  }

  function AuthenticationInterval(config: map<string, ConfigValue>, account: AccountId): real {
    GetInterval(config, account + AUTHENTICATION_INTERVAL_KEY, MINIMAL_AUTHENTICATION_INTERVAL)
  }

  /** The poll runs at least every 15 s apart and the refresh at least an hour apart, and a
      setting at or above the minimum is taken as it is. */
  lemma IntervalsRespectMinimums(config: map<string, ConfigValue>, account: AccountId, ms: real)
    ensures PollingInterval(config, account) >= 15000.0
    ensures AuthenticationInterval(config, account) >= 3600000.0
    ensures ms >= 15000.0 ==>
      PollingInterval(config[account + ".api.pollingIntervalInMs" := FiniteNumber(ms)], account) == ms
    ensures ms >= 3600000.0 ==>
      AuthenticationInterval(config[account + ".api.authenticationIntervalInMS" := FiniteNumber(ms)], account) == ms
  {
  }

  /** The refresh interval is read only under the `...InMS` spelling: a value stored as
      `authenticationIntervalInMs` leaves the refresh at its minimum. */
  lemma AuthenticationKeyIsCaseSensitive(account: AccountId, ms: real)
    ensures AuthenticationInterval(map[account + ".api.authenticationIntervalInMs" := FiniteNumber(ms)], account)
            == MINIMAL_AUTHENTICATION_INTERVAL
  {
    var lower, upper := account + ".api.authenticationIntervalInMs", account + AUTHENTICATION_INTERVAL_KEY;
    assert lower[|lower| - 1] == 's' && upper[|upper| - 1] == 'S';
  }

  // ---------------------------------------------------------------- stream-level retry

  /** `retry(n)` over `from(promise)` resubscribes to a promise that has already settled:
      every resubscription replays the same outcome, so the stream-level retry changes
      nothing and sends no request; the requests are the HTTP client's own. */
  lemma StreamRetryReplays<T, E>(settled: Outcome<T, E>)
    ensures RetryFrom((_: nat) => settled, (_: E) => true, 2, 0).outcome == settled
    ensures RetryFrom((_: nat) => settled, (_: E) => true, 2, 0).attempts == if settled.Done? then 1 else 3
  {
  }

  // ---------------------------------------------------------------- refresh stream

  /** What one refresh tick contributes to the refresh stream. */
  datatype TickResult = Emit(token: TokenResponse) | Skip | StreamError(reason: AuthError)

  /** One refresh tick as the code is written: a rejected refresh is logged and swallowed,
      a successful one emits its token, but the "not logged in" exception is thrown while
      the tick's inner stream is being built, outside the reach of `catchError`, and errors
      the whole stream. */
  function AuthTickAsWritten(o: LoginOutcome): TickResult {
    match o
    case LoginThrew(e) => StreamError(e)
    case RefreshFailed(_, _) => Skip
    case RefreshSucceeded(token, _) => Emit(token)
  }

  /** One refresh tick with "not logged in" handled like every other failure: logged, and
      the tick skipped. */
  function AuthTick(o: LoginOutcome): TickResult {
    match o
    case LoginThrew(_) => Skip
    case RefreshFailed(_, _) => Skip
    case RefreshSucceeded(token, _) => Emit(token)
  }

  /** The tokens the refresh stream emits as written: it ends at the first stream error. */
  function AuthStreamAsWritten(outcomes: seq<LoginOutcome>): seq<TokenResponse> {
    if outcomes == [] then []
    else
      match AuthTickAsWritten(outcomes[0])
      case StreamError(_) => []
      case Skip => AuthStreamAsWritten(outcomes[1..])
      case Emit(token) => [token] + AuthStreamAsWritten(outcomes[1..])
  }

  /** The tokens the refresh stream emits when every failed tick is skipped. */
  function AuthStream(outcomes: seq<LoginOutcome>): seq<TokenResponse> {
    if outcomes == [] then []
    else
      match AuthTick(outcomes[0])
      case StreamError(_) => []
      case Skip => AuthStream(outcomes[1..])
      case Emit(token) => [token] + AuthStream(outcomes[1..])
  }

  /** The token of a successful refresh, if the outcome is one. */
  function TokenOf(o: LoginOutcome): seq<TokenResponse> {
    if o.RefreshSucceeded? then [o.token] else []
  }

  /** As written, a "not logged in" tick ends the refresh stream: no later refresh reaches
      the join, even one that succeeds after the user has logged in. */
  lemma {:induction false} NotLoggedInEndsRefreshAsWritten(before: seq<LoginOutcome>, account: AccountId, after: seq<LoginOutcome>)
    ensures AuthStreamAsWritten(before + [LoginThrew(NotLoggedIn(account))] + after) == AuthStreamAsWritten(before)
  {
    if before == [] {
      assert ([LoginThrew(NotLoggedIn(account))] + after)[0] == LoginThrew(NotLoggedIn(account));
    } else {
      assert (before + [LoginThrew(NotLoggedIn(account))] + after)[1..] == before[1..] + [LoginThrew(NotLoggedIn(account))] + after;
      NotLoggedInEndsRefreshAsWritten(before[1..], account, after);
    }
  }

  /** The concrete input: logged out on the first tick, logged in by the second. */
  lemma LoggedInLaterIsIgnoredAsWritten(account: AccountId, token: TokenResponse)
    ensures AuthStreamAsWritten([LoginThrew(NotLoggedIn(account)), RefreshSucceeded(token, 1)]) == []
    ensures AuthStream([LoginThrew(NotLoggedIn(account)), RefreshSucceeded(token, 1)]) == [token]
  {
    var outcomes := [LoginThrew(NotLoggedIn(account)), RefreshSucceeded(token, 1)];
    assert outcomes[1..] == [RefreshSucceeded(token, 1)];
    assert outcomes[1..][1..] == [];
    assert AuthStream(outcomes[1..]) == [token] + AuthStream([]);
  }

  /** With failures skipped, the refresh stream is tick by tick: it emits, in order, the
      token of every successful refresh and nothing else, whatever failed before. */
  lemma {:induction false} AuthStreamEmitsEveryRefresh(outcomes: seq<LoginOutcome>, more: seq<LoginOutcome>)
    ensures AuthStream(outcomes + more) == AuthStream(outcomes) + AuthStream(more)
    ensures |outcomes| == 1 ==> AuthStream(outcomes) == TokenOf(outcomes[0])
  {
    if outcomes == [] {
      assert outcomes + more == more;
    } else {
      assert (outcomes + more)[0] == outcomes[0];
      assert (outcomes + more)[1..] == outcomes[1..] + more;
      AuthStreamEmitsEveryRefresh(outcomes[1..], more);
      if |outcomes| == 1 {
        assert outcomes[1..] == [];
      }
    }
  }

  // ---------------------------------------------------------------- the join

  /** The three sources of `combineLatest`: the listener gate, the poll timer and the
      refresh stream. */
  datatype Source = Gate | Timer | Auth

  datatype Event = GateChanged(enabled: bool) | PollTick(tick: nat) | Authenticated(token: TokenResponse)

  function SourceOf(e: Event): Source {
    match e
    case GateChanged(_) => Gate
    case PollTick(_) => Timer
    case Authenticated(_) => Auth
  }

  /** The latest value seen from each source; `None` until the source has fired. */
  datatype Latest = Latest(gate: Option<bool>, tick: Option<nat>, auth: Option<TokenResponse>)

  const NOTHING_SEEN := Latest(None, None, None)

  function Record(l: Latest, e: Event): Latest {
    match e
    case GateChanged(b) => l.(gate := Some(b))
    case PollTick(t) => l.(tick := Some(t))
    case Authenticated(token) => l.(auth := Some(token))
  }

  /** The latest values after a sequence of events. */
  function Run(events: seq<Event>): Latest {
    if events == [] then NOTHING_SEEN
    else Record(Run(events[..|events| - 1]), events[|events| - 1])
  }

  /** Whether the source has fired at least once. */
  predicate Fired(events: seq<Event>, s: Source) {
    exists i :: 0 <= i < |events| && SourceOf(events[i]) == s
  }

  /** `events[i]` is the last event of its source. */
  predicate LastOfItsSource(events: seq<Event>, i: int) {
    0 <= i < |events| && forall j :: i < j < |events| ==> SourceOf(events[j]) != SourceOf(events[i])
  }

  /** `combineLatest` emits a combined value for an event once every source has fired. */
  predicate Joined(l: Latest) {
    l.gate.Some? && l.tick.Some? && l.auth.Some?
  }

  /** ... and `filter(enabled)` lets it through to a fetch when the gate's latest value is true. */
  predicate FetchesOn(l: Latest) {
    Joined(l) && l.gate == Some(true)
  }

  /** Each slot holds the value of its source's last event, and is empty exactly while the
      source has not fired. */
  lemma {:induction false} RunKeepsLatest(events: seq<Event>)
    ensures Run(events).gate.Some? <==> Fired(events, Gate)
    ensures Run(events).tick.Some? <==> Fired(events, Timer)
    ensures Run(events).auth.Some? <==> Fired(events, Auth)
    ensures Run(events).gate.Some? ==>
      exists i :: LastOfItsSource(events, i) && events[i] == GateChanged(Run(events).gate.value)
    ensures Run(events).tick.Some? ==>
      exists i :: LastOfItsSource(events, i) && events[i] == PollTick(Run(events).tick.value)
    ensures Run(events).auth.Some? ==>
      exists i :: LastOfItsSource(events, i) && events[i] == Authenticated(Run(events).auth.value)
  {
    if events != [] {
      var prefix, last := events[..|events| - 1], events[|events| - 1];
      RunKeepsLatest(prefix);
      assert forall i :: 0 <= i < |prefix| ==> prefix[i] == events[i];
      var n := |events| - 1;
      assert LastOfItsSource(events, n);
      forall s | Fired(prefix, s) ensures Fired(events, s) {
        var i :| 0 <= i < |prefix| && SourceOf(prefix[i]) == s;
        assert SourceOf(events[i]) == s;
      }
      forall s | Fired(events, s) && s != SourceOf(last) ensures Fired(prefix, s) {
        var i :| 0 <= i < |events| && SourceOf(events[i]) == s;
        assert SourceOf(prefix[i]) == s;
      }
      forall i | LastOfItsSource(prefix, i) && SourceOf(prefix[i]) != SourceOf(last)
        ensures LastOfItsSource(events, i)
      {
      }
    }
  }

  /** No fetch happens before the gate, the poll timer and the refresh stream have each
      fired at least once. */
  lemma NoFetchBeforeAllSourcesFired(events: seq<Event>)
    requires !Fired(events, Gate) || !Fired(events, Timer) || !Fired(events, Auth)
    ensures !Joined(Run(events)) && !FetchesOn(Run(events))
  {
    RunKeepsLatest(events);
  }

  /** Once joined, every further event of any source yields a combined value carrying that
      event's value and the latest of the other two; it is fetched on exactly when the
      latest gate value is true. */
  lemma EveryEventAfterJoinCombines(events: seq<Event>, e: Event)
    requires Joined(Run(events))
    ensures Joined(Run(events + [e]))
    ensures e.GateChanged? ==> Run(events + [e]) == Run(events).(gate := Some(e.enabled))
    ensures e.PollTick? ==> Run(events + [e]) == Run(events).(tick := Some(e.tick))
    ensures e.Authenticated? ==> Run(events + [e]) == Run(events).(auth := Some(e.token))
    ensures FetchesOn(Run(events + [e])) <==> Run(events + [e]).gate == Some(true)
  {
    assert (events + [e])[..|events|] == events;
  }

  // ---------------------------------------------------------------- favourites fetch

  /** The body of the favourites response; `items` may be missing. */
  datatype FavoritesResponse = FavoritesResponse(items: Option<seq<Business>>)

  /** One account's pipeline: the intervals it was started with, the latest value of each
      joined source, the favourites requests it has transmitted, and the lists it has
      emitted to the change detector. */
  class PollPipeline {
    const account: AccountId
    const pollingInterval: real
    const authenticationInterval: real
    var latest: Latest
    var fetchRequests: nat
    var emitted: seq<seq<Business>>
    ghost var events: seq<Event>

    ghost predicate Valid()
      reads this
    {
      latest == Run(events)
      && pollingInterval >= MINIMAL_POLLING_INTERVAL
      && authenticationInterval >= MINIMAL_AUTHENTICATION_INTERVAL
    }

    /** `pollFavoriteBusinesses$`: reads both intervals from the configuration. */
    constructor (config: map<string, ConfigValue>, account: AccountId)
      ensures Valid()
      ensures this.account == account
      ensures pollingInterval == PollingInterval(config, account)
      ensures authenticationInterval == AuthenticationInterval(config, account)
      ensures events == [] && fetchRequests == 0 && emitted == []
    {
      this.account := account;
      pollingInterval := PollingInterval(config, account);
      authenticationInterval := AuthenticationInterval(config, account);
      latest := NOTHING_SEEN;
      fetchRequests := 0;
      emitted := [];
      events := [];
    }

    /** One refresh tick: `login` through the session store, then the corrected tick
        handling; a token, when there is one, is the refresh stream's next event. */
    method Authenticate(store: SessionStore, attempt: nat -> Outcome<TokenResponse, HttpError>)
      returns (r: Option<TokenResponse>)
      modifies store
      ensures r.Some? ==> store.Current(account).accessToken == Some(r.value.accessToken)
                          && store.Current(account).refreshToken == old(store.Current(account)).refreshToken
      ensures r.Some? ==>
        Post(attempt).outcome == Done(r.value)
        && store.sessions == old(store.sessions)[account := Refreshed(old(store.Current(account)), r.value)]
      ensures r.None? ==> store.sessions == old(store.sessions)
      ensures r.None? <==> !Truthy(old(store.Current(account)).refreshToken) || Post(attempt).outcome.Failed?
    {
      var outcome, _ := store.Login(account, attempt);
      match AuthTick(outcome)
      case Emit(token) =>
        r := Some(token);
      case Skip =>
        r := None;
      case StreamError(_) =>
        assert false;
        r := None;
    }

    /** One event reaching the join. When the combined value passes the gate, the
        favourites request is built from the account's session as it is at that moment and
        sent through the HTTP client (whose k-th transmission yields `attempt(k)`); a
        response with `items` emits exactly those items, and a failed or item-less fetch
        emits nothing. */
    method Fire(e: Event, store: SessionStore, origin: Origin, attempt: nat -> Outcome<FavoritesResponse, HttpError>)
      returns (fetched: bool, request: Option<Request>, emission: Option<seq<Business>>)
      requires Valid()
      modifies this
      ensures Valid()
      ensures events == old(events) + [e]
      ensures fetched <==> FetchesOn(latest)
      ensures request.Some? <==> fetched
      ensures request.Some? ==> request.value == FavoritesRequest(store.Current(account), origin)
      ensures !fetched ==> fetchRequests == old(fetchRequests) && emission.None?
      ensures fetched ==> fetchRequests == old(fetchRequests) + Post(attempt).attempts <= old(fetchRequests) + 3
      ensures emission.Some? <==>
        fetched && Post(attempt).outcome.Done? && Post(attempt).outcome.value.items.Some?
      ensures emission.Some? ==> emission.value == Post(attempt).outcome.value.items.value
      ensures emitted == old(emitted) + (if emission.Some? then [emission.value] else [])
    {
      latest := Record(latest, e);
      events := events + [e];
      assert events[..|events| - 1] == old(events);
      fetched := FetchesOn(latest);
      request := None;
      emission := None;
      if fetched {
        request := Some(FavoritesRequest(store.Current(account), origin));
        var sent := Post(attempt);
        fetchRequests := fetchRequests + sent.attempts;
        if sent.outcome.Done? && sent.outcome.value.items.Some? {
          emission := Some(sent.outcome.value.items.value);
          emitted := emitted + [emission.value];
        }
      }
    }
  }
}

=== FILE: retry.dfy ===
/** The retry loop shared by the HTTP client (`retry.limit`) and by RxJS's `retry(count)`:
    attempt, and attempt again while the failure is retryable and the budget lasts. */
module Retry {

  /** What one attempt yields. */
  datatype Outcome<+T, +E> = Done(value: T) | Failed(error: E)

  /** What a retried operation finally yields, and how many attempts it made. */
  datatype Retried<+T, +E> = Retried(outcome: Outcome<T, E>, attempts: nat)

  /** Makes attempts `i`, `i + 1`, ... of `attempt` (attempt `k` yields `attempt(k)`) until one
      succeeds, fails with an error `retryable` rejects, or `retries` retries have been spent. */
  function RetryFrom<T, E>(attempt: nat -> Outcome<T, E>, retryable: E -> bool, retries: nat, i: nat): (r: Retried<T, E>)
    requires i <= retries
    ensures i < r.attempts <= retries + 1
    ensures r.outcome == attempt(r.attempts - 1)
    ensures forall k :: i <= k < r.attempts - 1 ==> attempt(k).Failed? && retryable(attempt(k).error)
    ensures r.outcome.Done? || !retryable(r.outcome.error) || r.attempts == retries + 1
    decreases retries - i
  {
    var o := attempt(i);
    if o.Failed? && retryable(o.error) && i < retries then
      RetryFrom(attempt, retryable, retries, i + 1)
    else
      Retried(o, i + 1)
  }

  /** Retrying succeeds exactly when some attempt within the budget succeeds before a
      non-retryable failure; the value is that of the first success. */
  lemma RetrySucceedsOnFirstSuccess<T, E>(attempt: nat -> Outcome<T, E>, retryable: E -> bool, retries: nat, k: nat)
    requires k <= retries && attempt(k).Done?
    requires forall j :: 0 <= j < k ==> attempt(j).Failed? && retryable(attempt(j).error)
    ensures RetryFrom(attempt, retryable, retries, 0) == Retried(attempt(k), k + 1)
  {
    var r := RetryFrom(attempt, retryable, retries, 0);
    var last: nat := r.attempts - 1;
    assert last < k ==> attempt(last).Failed?;
  }
}

=== FILE: telegram_bot.dfy ===
/** The Telegram side of the watcher: the per-account list of subscribed chats, the count of
    active chats that feeds the listener gate, message fan-out to the chats, the handling of
    a failed send, and the `/login <email>` command. */
module TelegramBot {
  import opened Common
  import opened Retry
  import opened Api

  /** A subscribed chat as `addChat` stores it. */
  datatype Chat = Chat(id: int, firstName: string, lastName: string)

  function ChatIds(chats: seq<Chat>): set<int> {
    set c | c in chats :: c.id
  }

  predicate UniqueChatIds(chats: seq<Chat>) {
    forall i, j :: 0 <= i < j < |chats| ==> chats[i].id != chats[j].id
  }

  /** The first chat of the list with the given id. */
  function FirstWithId(chats: seq<Chat>, id: int): Option<Chat> {
    if chats == [] then None
    else if chats[0].id == id then Some(chats[0])
    else FirstWithId(chats[1..], id)
  }

  lemma {:induction false} FirstWithIdAppend(chats: seq<Chat>, c: Chat, id: int)
    ensures FirstWithId(chats + [c], id) ==
      if id in ChatIds(chats) then FirstWithId(chats, id) else if c.id == id then Some(c) else None
  {
    if chats == [] {
      assert [] + [c] == [c];
      assert [c][1..] == [];
    } else {
      assert (chats + [c])[1..] == chats[1..] + [c];
      assert ChatIds(chats) == {chats[0].id} + ChatIds(chats[1..]) by {
        assert chats == [chats[0]] + chats[1..];
      }
      FirstWithIdAppend(chats[1..], c, id);
    }
  }

  /** `_.uniqBy(chats, "id")`: the first chat of each id, in the order of the list. */
  function UniqueById(chats: seq<Chat>): (r: seq<Chat>)
    ensures UniqueChatIds(r)
    ensures ChatIds(r) == ChatIds(chats)
  {
    if chats == [] then []
    else
      var prefix, last := chats[..|chats| - 1], chats[|chats| - 1];
      var kept := UniqueById(prefix);
      assert chats == prefix + [last];
      assert ChatIds(chats) == ChatIds(prefix) + {last.id};
      if last.id in ChatIds(kept) then kept
      else
        assert ChatIds(kept + [last]) == ChatIds(kept) + {last.id};
        kept + [last]
  }

  /** The chat `uniqBy` keeps for each id is the first one listed with it. */
  lemma {:induction false} UniqueByIdKeepsFirst(chats: seq<Chat>)
    ensures forall c :: c in UniqueById(chats) <==> c in chats && FirstWithId(chats, c.id) == Some(c)
  {
    if chats != [] {
      var prefix, last := chats[..|chats| - 1], chats[|chats| - 1];
      var kept := UniqueById(prefix);
      assert chats == prefix + [last];
      UniqueByIdKeepsFirst(prefix);
      forall id ensures FirstWithId(chats, id) ==
        if id in ChatIds(prefix) then FirstWithId(prefix, id) else if last.id == id then Some(last) else None
      {
        FirstWithIdAppend(prefix, last, id);
      }
    }
  }

  /** A list with unique ids is its own `uniqBy`. */
  lemma {:induction false} UniqueByIdOfUnique(chats: seq<Chat>)
    requires UniqueChatIds(chats)
    ensures UniqueById(chats) == chats
  {
    if chats != [] {
      var prefix, last := chats[..|chats| - 1], chats[|chats| - 1];
      UniqueByIdOfUnique(prefix);
      assert last.id !in ChatIds(prefix);
    }
  }

  /** `_.unionBy(chats, [chat], "id")`. */
  function UnionById(chats: seq<Chat>, chat: Chat): seq<Chat> {
    UniqueById(chats + [chat])
  }

  /** Adding to a list with unique ids keeps every chat in its place; a known id leaves the
      list as it is, keeping the stored chat, and a new id goes last. */
  lemma AddChatKeepsOrder(chats: seq<Chat>, chat: Chat)
    requires UniqueChatIds(chats)
    ensures UnionById(chats, chat) == if chat.id in ChatIds(chats) then chats else chats + [chat]
    ensures chat.id in ChatIds(UnionById(chats, chat)) && UniqueChatIds(UnionById(chats, chat))
  {
    assert (chats + [chat])[..|chats|] == chats;
    UniqueByIdOfUnique(chats);
  }

  /** `_.find(chats, {id})`: the position of the first chat with the id, or the length of
      the list when there is none. */
  function FirstIndexOfId(chats: seq<Chat>, id: int): (i: nat)
    ensures i <= |chats|
    ensures forall j :: 0 <= j < i ==> chats[j].id != id
    ensures i < |chats| ==> chats[i].id == id
  {
    if chats == [] then 0
    else if chats[0].id == id then 0
    else 1 + FirstIndexOfId(chats[1..], id)
  }

  /** `_.find` comes back empty exactly when no chat has the id. */
  lemma FirstIndexOfIdMisses(chats: seq<Chat>, id: int)
    ensures FirstIndexOfId(chats, id) == |chats| <==> id !in ChatIds(chats)
  {
    var i := FirstIndexOfId(chats, id);
    if id in ChatIds(chats) {
      var c :| c in chats && c.id == id;
      var k :| 0 <= k < |chats| && chats[k] == c;
      assert i <= k;
    }
  }

  /** `removeChat`: `_.pull` takes out the chat `_.find` returned; an unknown id leaves the
      list as it is. */
  function RemoveFirstById(chats: seq<Chat>, id: int): seq<Chat> {
    var i := FirstIndexOfId(chats, id);
    if i < |chats| then chats[..i] + chats[i + 1..] else chats
  }

  /** An unknown id leaves the list as it is; a known one costs it exactly one chat. */
  lemma RemoveFirstByIdLength(chats: seq<Chat>, id: int)
    ensures id !in ChatIds(chats) ==> RemoveFirstById(chats, id) == chats
    ensures id in ChatIds(chats) ==> |RemoveFirstById(chats, id)| == |chats| - 1
  {
    var i := FirstIndexOfId(chats, id);
    FirstIndexOfIdMisses(chats, id);
    if i < |chats| {
      assert |chats[..i] + chats[i + 1..]| == |chats| - 1;
    }
  }

  /** The first chat with the id goes: the chats before it stay in place and each later
      chat moves up by one. */
  lemma {:induction false} RemoveFirstByIdShifts(chats: seq<Chat>, id: int)
    ensures var r, i := RemoveFirstById(chats, id), FirstIndexOfId(chats, id);
      forall k :: 0 <= k < i && k < |r| ==> r[k] == chats[k]
    ensures var r, i := RemoveFirstById(chats, id), FirstIndexOfId(chats, id);
      forall k :: i <= k < |r| ==> r[k] == chats[k + 1]
  {
    var i := FirstIndexOfId(chats, id);
    if i < |chats| {
      var r := chats[..i] + chats[i + 1..];
      DropAtShifts(chats, i);
      assert RemoveFirstById(chats, id) == r;
      forall k | i <= k < |r| ensures r[k] == chats[k + 1] {
        assert r[(k + 1) - 1] == chats[k + 1];
      }
    } else {
      assert RemoveFirstById(chats, id) == chats;
    }
  }

  /** Dropping position `i` of a list keeps the positions before it and moves the later
      ones up by one. */
  lemma DropAtShifts<T>(xs: seq<T>, i: nat)
    requires i < |xs|
    ensures forall k :: 0 <= k < i ==> (xs[..i] + xs[i + 1..])[k] == xs[k]
    ensures forall k :: i < k < |xs| ==> (xs[..i] + xs[i + 1..])[k - 1] == xs[k]
  {
    var front, back := xs[..i], xs[i + 1..];
    forall k | 0 <= k < i ensures (front + back)[k] == xs[k] {
      assert (front + back)[k] == front[k];
    }
    forall k | i < k < |xs| ensures (front + back)[k - 1] == xs[k] {
      assert (front + back)[k - 1] == back[k - 1 - i];
    }
  }

  /** Removal keeps every chat with another id. */
  lemma {:induction false} RemoveKeepsOthers(chats: seq<Chat>, id: int)
    ensures forall c :: c in chats && c.id != id ==> c in RemoveFirstById(chats, id)
  {
    var r, i := RemoveFirstById(chats, id), FirstIndexOfId(chats, id);
    RemoveFirstByIdShifts(chats, id);
    forall c | c in chats && c.id != id ensures c in r {
      var k :| 0 <= k < |chats| && chats[k] == c;
      if i == |chats| {
        assert r == chats;
      } else if k < i {
        assert r[k] == c;
      } else {
        assert r[k - 1] == c;
      }
    }
  }

  /** In a list with unique ids, nothing with the removed id survives removal. */
  lemma {:induction false} RemoveDropsId(chats: seq<Chat>, id: int)
    requires UniqueChatIds(chats)
    ensures forall c :: c in RemoveFirstById(chats, id) ==> c in chats && c.id != id
  {
    var r, i := RemoveFirstById(chats, id), FirstIndexOfId(chats, id);
    RemoveFirstByIdShifts(chats, id);
    FirstIndexOfIdMisses(chats, id);
    forall c | c in r ensures c in chats && c.id != id {
      var k :| 0 <= k < |r| && r[k] == c;
      if i == |chats| {
        assert c in chats && c.id in ChatIds(chats);
      } else if k < i {
        assert r[k] == chats[k];
      } else {
        assert r[k] == chats[k + 1] && chats[i].id == id;
      }
    }
  }

  /** Removal keeps the ids of a list unique. */
  lemma {:induction false} RemoveKeepsUnique(chats: seq<Chat>, id: int)
    requires UniqueChatIds(chats)
    ensures UniqueChatIds(RemoveFirstById(chats, id))
  {
    var r, i := RemoveFirstById(chats, id), FirstIndexOfId(chats, id);
    RemoveFirstByIdShifts(chats, id);
    forall k, l | 0 <= k < l < |r| ensures r[k].id != r[l].id {
      var ok := if k < i then k else k + 1;
      var ol := if l < i then l else l + 1;
      assert r[k] == chats[ok] && r[l] == chats[ol] && ok < ol;
    }
  }

  /** In a list with unique ids, removal takes out exactly the chat with that id. */
  lemma {:induction false} RemoveChatRemovesId(chats: seq<Chat>, id: int)
    requires UniqueChatIds(chats)
    ensures UniqueChatIds(RemoveFirstById(chats, id))
    ensures forall c :: c in RemoveFirstById(chats, id) <==> c in chats && c.id != id
    ensures ChatIds(RemoveFirstById(chats, id)) == ChatIds(chats) - {id}
  {
    var r := RemoveFirstById(chats, id);
    RemoveKeepsUnique(chats, id);
    RemoveDropsId(chats, id);
    RemoveKeepsOthers(chats, id);
    forall x ensures x in ChatIds(r) <==> x in ChatIds(chats) - {id} {
      if x in ChatIds(r) {
        var c :| c in r && c.id == x;
        assert c in chats;
      }
      if x in ChatIds(chats) - {id} {
        var c :| c in chats && c.id == x;
        assert c in r;
      }
    }
  }

  /** `getNumberOfActiveChats`: `_.size` of the account's chat list, 0 when there is none. */
  function NumberOfActiveChats(chats: map<AccountId, seq<Chat>>, account: AccountId): nat {
    if account in chats then |chats[account]| else 0
  }

  // ---------------------------------------------------------------- the Telegram gate

  /** `distinctUntilChanged`: drops every value equal to the one emitted just before it. */
  function DistinctUntilChanged<T(==,!new)>(xs: seq<T>): (r: seq<T>)
    ensures |r| <= |xs| && (r == [] <==> xs == [])
    ensures forall i :: 0 <= i < |r| - 1 ==> r[i] != r[i + 1]
    ensures xs != [] ==> r[0] == xs[0] && r[|r| - 1] == xs[|xs| - 1]
    ensures forall x :: x in r <==> x in xs
  {
    if xs == [] then []
    else
      var prefix, last := xs[..|xs| - 1], xs[|xs| - 1];
      assert xs == prefix + [last];
      var kept := DistinctUntilChanged(prefix);
      if kept != [] && kept[|kept| - 1] == last then kept else kept + [last]
  }

  /** A new value is emitted exactly when it differs from the value before it. */
  lemma {:induction false} DistinctUntilChangedAppend<T(!new)>(xs: seq<T>, x: T)
    ensures DistinctUntilChanged(xs + [x])
         == if xs != [] && xs[|xs| - 1] == x then DistinctUntilChanged(xs) else DistinctUntilChanged(xs) + [x]
  {
    assert (xs + [x])[..|xs|] == xs;
  }

  /** Position `i` holds a value different from the one before it. */
  predicate ChangesAt<T(==)>(xs: seq<T>, i: int) {
    0 < i < |xs| && xs[i] != xs[i - 1]
  }

  /** The positions holding a value different from the one before. */
  function ChangePoints<T(==)>(xs: seq<T>): set<int> {
    set i | 0 < i < |xs| && ChangesAt(xs, i)
  }

  /** Appending a value adds its position as a change point exactly when it differs from
      the last value. */
  lemma ChangePointsAppend<T>(p: seq<T>, x: T)
    requires p != []
    ensures ChangePoints(p + [x]) == ChangePoints(p) + if p[|p| - 1] != x then {|p|} else {}
  {
    var xs := p + [x];
    forall i ensures i in ChangePoints(xs) <==> i in ChangePoints(p) + if p[|p| - 1] != x then {|p|} else {} {
      if 0 < i < |p| {
        assert xs[i] == p[i] && xs[i - 1] == p[i - 1];
        assert ChangesAt(xs, i) == ChangesAt(p, i);
      } else if i == |p| {
        assert xs[i] == x && xs[i - 1] == p[|p| - 1];
      }
    }
  }

  /** A single value has no change point and is emitted as it is. */
  lemma SingleValueHasNoChange<T(!new)>(x: T)
    ensures ChangePoints([x]) == {} && DistinctUntilChanged([x]) == [x]
  {
    assert [x][..0] == [];
  }

  /** One step of the count: appending a value keeps the count law. */
  lemma DistinctUntilChangedCountStep<T(!new)>(p: seq<T>, x: T)
    requires p != [] && |DistinctUntilChanged(p)| == 1 + |ChangePoints(p)|
    ensures |DistinctUntilChanged(p + [x])| == 1 + |ChangePoints(p + [x])|
  {
    DistinctUntilChangedAppend(p, x);
    ChangePointsAppend(p, x);
    var cp := ChangePoints(p);
    if p[|p| - 1] != x {
      assert |p| !in cp;
      assert |cp + {|p|}| == |cp| + 1;
    } else {
      assert cp + {} == cp;
    }
  }

  /** `distinctUntilChanged` emits the first value and one value per change point. */
  lemma {:induction false} DistinctUntilChangedCount<T(!new)>(xs: seq<T>)
    requires xs != []
    ensures |DistinctUntilChanged(xs)| == 1 + |ChangePoints(xs)|
  {
    var p, x := xs[..|xs| - 1], xs[|xs| - 1];
    assert xs == p + [x];
    if p == [] {
      SingleValueHasNoChange(x);
      assert xs == [x];
    } else {
      DistinctUntilChangedCount(p);
      DistinctUntilChangedCountStep(p, x);
    }
  }

  /** `isEnabled`: the account's `telegram.enabled` flag, false when unset. */
  predicate IsEnabled(enabledAccounts: set<AccountId>, account: AccountId) {
    account in enabledAccounts
  }

  /** `hasActiveTelegramChats$` as written: `isEnabled()` is called with no account, so the
      flag is read under the account id "undefined". */
  function TelegramSignalAsWritten(counts: seq<nat>, enabledAccounts: set<AccountId>): seq<bool> {
    TelegramSignal(counts, enabledAccounts, UNDEFINED_ACCOUNT)
  }

  /** The signal with the account's own flag: for every published count, whether it is
      positive and Telegram is enabled, with repeats dropped. */
  function TelegramSignal(counts: seq<nat>, enabledAccounts: set<AccountId>, account: AccountId): seq<bool> {
    DistinctUntilChanged(seq(|counts|, i requires 0 <= i < |counts| => counts[i] > 0 && IsEnabled(enabledAccounts, account)))
  }

  /** The signal follows the latest count: it currently says true exactly when the last
      published count is positive and the account has Telegram enabled, and it never
      repeats a value. */
  lemma TelegramSignalFollowsCount(counts: seq<nat>, enabledAccounts: set<AccountId>, account: AccountId)
    requires counts != []
    ensures var s := TelegramSignal(counts, enabledAccounts, account);
      s != [] && s[|s| - 1] == (counts[|counts| - 1] > 0 && IsEnabled(enabledAccounts, account))
      && forall i :: 0 <= i < |s| - 1 ==> s[i] != s[i + 1]
  {
  }

  /** As written, an account with Telegram enabled and subscribed chats never turns the
      signal on unless the configuration also enables Telegram for an account literally
      named "undefined". */
  lemma TelegramSignalIgnoresAccountAsWritten(counts: seq<nat>, enabledAccounts: set<AccountId>)
    requires UNDEFINED_ACCOUNT !in enabledAccounts && counts != []
    ensures TelegramSignalAsWritten(counts, enabledAccounts) == [false]
  {
    DistinctOfConstant(seq(|counts|, i requires 0 <= i < |counts| => counts[i] > 0 && IsEnabled(enabledAccounts, UNDEFINED_ACCOUNT)), false);
  }

  /** A stream that repeats one value emits it once. */
  lemma {:induction false} DistinctOfConstant<T(!new)>(xs: seq<T>, x: T)
    requires xs != [] && forall i :: 0 <= i < |xs| ==> xs[i] == x
    ensures DistinctUntilChanged(xs) == [x]
  {
    if |xs| > 1 {
      DistinctOfConstant(xs[..|xs| - 1], x);
    }
  }

  // ---------------------------------------------------------------- send errors

  /** The chat lists after `removeChat(chatId, account)`: rewritten only when the account has
      a list holding that id. */
  function ChatsAfterRemove(chats: map<AccountId, seq<Chat>>, account: AccountId, chatId: int): map<AccountId, seq<Chat>> {
    if account in chats && chatId in ChatIds(chats[account]) then chats[account := RemoveFirstById(chats[account], chatId)]
    else chats
  }

  /** The chat lists and the published counts after a failed send. */
  datatype ErrorEffect = ErrorEffect(chats: map<AccountId, seq<Chat>>, published: seq<nat>)

  /** The send-error handler as written: a 403 calls `removeChat(chatId)` with no account,
      so the removal and the recount both look under the account id "undefined". */
  function SendErrorAsWritten(chats: map<AccountId, seq<Chat>>, account: AccountId, chatId: int, code: int): ErrorEffect {
    SendError(chats, UNDEFINED_ACCOUNT, chatId, code)
  }

  /** The send-error handler with the sending account passed on: a 403 (the bot was blocked)
      removes the chat from that account and republishes its count; any other error only
      logs. */
  function SendError(chats: map<AccountId, seq<Chat>>, account: AccountId, chatId: int, code: int): ErrorEffect {
    if code == 403 then
      var after := ChatsAfterRemove(chats, account, chatId);
      ErrorEffect(after, [NumberOfActiveChats(after, account)])
    else ErrorEffect(chats, [])
  }

  /** A 403 removes exactly the blocked chat from the sending account, leaves every other
      account alone and publishes the new count; other errors change nothing. */
  lemma SendErrorRemovesBlockedChat(chats: map<AccountId, seq<Chat>>, account: AccountId, chatId: int, code: int)
    requires account in chats && UniqueChatIds(chats[account])
    ensures var e := SendError(chats, account, chatId, code);
      (code == 403 ==>
        e.chats.Keys == chats.Keys
        && ChatIds(e.chats[account]) == ChatIds(chats[account]) - {chatId}
        && (forall a :: a in chats && a != account ==> e.chats[a] == chats[a])
        && e.published == [|e.chats[account]|])
      && (code != 403 ==> e == ErrorEffect(chats, []))
  {
    RemoveChatRemovesId(chats[account], chatId);
  }

  /** As written, a 403 from a chat of a real account keeps the blocked chat and publishes a
      count of 0 for every such account, since no account is named "undefined". */
  lemma BlockedChatKeptAsWritten(chats: map<AccountId, seq<Chat>>, account: AccountId, chat: Chat)
    requires account in chats && chat in chats[account] && UNDEFINED_ACCOUNT !in chats
    ensures SendErrorAsWritten(chats, account, chat.id, 403) == ErrorEffect(chats, [0])
    ensures chat.id in ChatIds(SendErrorAsWritten(chats, account, chat.id, 403).chats[account])
  {
  }

  // ---------------------------------------------------------------- the /login command

  /** `String.prototype.split` on a one-character separator. */
  function Split(s: string, sep: char): (r: seq<string>)
    ensures |r| >= 1
  {
    if s == [] then [""]
    else
      var rest := Split(s[1..], sep);
      if s[0] == sep then [""] + rest
      else [[s[0]] + rest[0]] + rest[1..]
  }

  /** No piece of a split holds the separator. */
  lemma {:induction false} SplitPiecesFree(s: string, sep: char)
    ensures forall i :: 0 <= i < |Split(s, sep)| ==> sep !in Split(s, sep)[i]
  {
    if s != [] {
      SplitPiecesFree(s[1..], sep);
      var rest := Split(s[1..], sep);
      if s[0] != sep {
        assert sep !in [s[0]] + rest[0];
      }
    }
  }

  /** `Array.prototype.join` with a one-character separator. */
  function Join(parts: seq<string>, sep: char): string
    requires |parts| >= 1
  {
    if |parts| == 1 then parts[0] else parts[0] + [sep] + Join(parts[1..], sep)
  }

  /** Splitting and joining back gives the text again. */
  lemma {:induction false} SplitThenJoin(s: string, sep: char)
    ensures Join(Split(s, sep), sep) == s
  {
    if s != [] {
      var rest := Split(s[1..], sep);
      SplitThenJoin(s[1..], sep);
      assert s == [s[0]] + s[1..];
      if s[0] != sep && |rest| > 1 {
        assert ([[s[0]] + rest[0]] + rest[1..])[1..] == rest[1..];
      }
    }
  }

  /** Joining parts free of the separator and splitting again gives the parts again. */
  lemma {:induction false} JoinThenSplit(parts: seq<string>, sep: char)
    requires |parts| >= 1 && forall i :: 0 <= i < |parts| ==> sep !in parts[i]
    ensures Split(Join(parts, sep), sep) == parts
    decreases |Join(parts, sep)|
  {
    var p := parts[0];
    if p == [] {
      if |parts| > 1 {
        JoinThenSplit(parts[1..], sep);
        assert Join(parts, sep) == [sep] + Join(parts[1..], sep);
        assert Join(parts, sep)[1..] == Join(parts[1..], sep);
      }
    } else {
      var shorter := [p[1..]] + parts[1..];
      assert shorter[1..] == parts[1..];
      assert forall i :: 0 <= i < |shorter| ==> sep !in shorter[i] by {
        assert forall x :: x in p[1..] ==> x in p;
      }
      assert Join(parts, sep) == [p[0]] + Join(shorter, sep);
      assert Join(parts, sep)[1..] == Join(shorter, sep);
      JoinThenSplit(shorter, sep);
      assert p[0] != sep by { assert p[0] in p; }
      assert [p[0]] + p[1..] == p;
    }
  }

  /** The characters `String.prototype.trim` strips: ECMAScript white space and line
      terminators. */
  const JS_WHITESPACE: seq<(char, char)> := [
    ('\t', '\r'),                   // tab, line feed, vertical tab, form feed, carriage return
    (' ', ' '), ('\U{00A0}', '\U{00A0}'), ('\U{1680}', '\U{1680}'),
    ('\U{2000}', '\U{200A}'),       // en quad .. hair space
    ('\U{2028}', '\U{2029}'),       // line and paragraph separators
    ('\U{202F}', '\U{202F}'), ('\U{205F}', '\U{205F}'), ('\U{3000}', '\U{3000}'),
    ('\U{FEFF}', '\U{FEFF}')        // byte order mark
  ]

  /** `c` lies in one of the inclusive ranges. */
  predicate InRanges(c: char, ranges: seq<(char, char)>) {
    ranges != [] && (ranges[0].0 <= c <= ranges[0].1 || InRanges(c, ranges[1..]))
  }

  predicate IsJsWhitespace(c: char) {
    InRanges(c, JS_WHITESPACE)
  }

  /** How many white-space characters `s` starts with. */
  function LeadingSpace(s: string): (n: nat)
    ensures n <= |s|
  {
    if s != [] && IsJsWhitespace(s[0]) then 1 + LeadingSpace(s[1..]) else 0
  }

  /** How many white-space characters `s` ends with. */
  function TrailingSpace(s: string): (n: nat)
    ensures n <= |s|
  {
    if s != [] && IsJsWhitespace(s[|s| - 1]) then 1 + TrailingSpace(s[..|s| - 1]) else 0
  }

  /** The leading run is all white space and stops at a character that is not. */
  lemma {:induction false} LeadingSpaceIsMaximal(s: string)
    ensures forall k :: 0 <= k < LeadingSpace(s) ==> IsJsWhitespace(s[k])
    ensures LeadingSpace(s) < |s| ==> !IsJsWhitespace(s[LeadingSpace(s)])
  {
    if s != [] && IsJsWhitespace(s[0]) {
      var n := LeadingSpace(s);
      LeadingSpaceIsMaximal(s[1..]);
      assert n == 1 + LeadingSpace(s[1..]);
      forall k | 1 <= k < n ensures IsJsWhitespace(s[k]) {
        assert s[k] == s[1..][k - 1];
      }
      if n < |s| {
        assert s[n] == s[1..][n - 1];
      }
    } else {
      assert LeadingSpace(s) == 0;
    }
  }

  /** The trailing run is all white space and stops at a character that is not. */
  lemma {:induction false} TrailingSpaceIsMaximal(s: string)
    ensures forall k :: |s| - TrailingSpace(s) <= k < |s| ==> IsJsWhitespace(s[k])
    ensures TrailingSpace(s) < |s| ==> !IsJsWhitespace(s[|s| - TrailingSpace(s) - 1])
  {
    if s != [] && IsJsWhitespace(s[|s| - 1]) {
      var n, shorter := TrailingSpace(s), s[..|s| - 1];
      TrailingSpaceIsMaximal(shorter);
      assert n == 1 + TrailingSpace(shorter);
      forall k | |s| - n <= k < |s| - 1 ensures IsJsWhitespace(s[k]) {
        assert s[k] == shorter[k];
      }
      if n < |s| {
        assert s[|s| - n - 1] == shorter[|shorter| - TrailingSpace(shorter) - 1];
      }
    } else {
      assert TrailingSpace(s) == 0;
    }
  }

  /** `trimStart`: the text after the leading white space. */
  function TrimStart(s: string): string {
    s[LeadingSpace(s)..]
  }

  /** `trimEnd`: the text before the trailing white space. */
  function TrimEnd(s: string): string {
    s[..|s| - TrailingSpace(s)]
  }

  /** `trim`: the text between the leading and the trailing white space. */
  function Trim(s: string): string {
    TrimEnd(TrimStart(s))
  }

  /** Trimming cuts only white space, and only at the two ends, and leaves none there. */
  lemma {:induction false} TrimCutsWhitespace(s: string)
    ensures var r := Trim(s);
      exists i, j ::
        0 <= i <= j <= |s| && r == s[i..j]
        && (forall k :: 0 <= k < i || j <= k < |s| ==> IsJsWhitespace(s[k]))
    ensures var r := Trim(s);
      r == [] || (!IsJsWhitespace(r[0]) && !IsJsWhitespace(r[|r| - 1]))
  {
    var i := LeadingSpace(s);
    var front := s[i..];
    var t := TrailingSpace(front);
    var j := |s| - t;
    var r := front[..|front| - t];
    assert Trim(s) == r;
    LeadingSpaceIsMaximal(s);
    TrailingSpaceIsMaximal(front);
    assert r == s[i..j];
    forall k | 0 <= k < i || j <= k < |s| ensures IsJsWhitespace(s[k]) {
      if j <= k {
        assert s[k] == front[k - i];
      }
    }
    assert 0 <= i <= j <= |s| && r == s[i..j]
      && (forall k :: 0 <= k < i || j <= k < |s| ==> IsJsWhitespace(s[k]));
    if r != [] {
      assert r[0] == s[i];
      assert r[|r| - 1] == front[|front| - t - 1];
    }
  }

  /** The email argument of `/login <email>`: the second space-separated word, trimmed; none
      when there is no second word or it trims to the empty string. */
  function LoginEmail(text: string): Option<string> {
    var parts := Split(text, ' ');
    if |parts| > 1 && Trim(parts[1]) != "" then Some(Trim(parts[1])) else None
  }

  /** A message whose words hold no space yields its second word when that word has no
      white space at either end. */
  lemma {:induction false} LoginEmailOfWords(parts: seq<string>)
    requires |parts| > 1 && forall i :: 0 <= i < |parts| ==> ' ' !in parts[i]
    requires parts[1] != [] && !IsJsWhitespace(parts[1][0]) && !IsJsWhitespace(parts[1][|parts[1]| - 1])
    ensures LoginEmail(Join(parts, ' ')) == Some(parts[1])
  {
    JoinThenSplit(parts, ' ');
    TrimOfTrimmed(parts[1]);
  }

  /** `/login a@b.c` yields the address, and so does `/login a@b.c more words`. */
  lemma {:induction false} LoginEmailTakesSecondWord(command: string, email: string, rest: seq<string>)
    requires ' ' !in command && ' ' !in email && email != []
    requires !IsJsWhitespace(email[0]) && !IsJsWhitespace(email[|email| - 1])
    requires forall i :: 0 <= i < |rest| ==> ' ' !in rest[i]
    ensures LoginEmail(Join([command, email] + rest, ' ')) == Some(email)
  {
    var parts := [command, email] + rest;
    assert forall i :: 0 <= i < |parts| ==> ' ' !in parts[i] by {
      assert forall i :: 2 <= i < |parts| ==> parts[i] == rest[i - 2];
    }
    LoginEmailOfWords(parts);
  }

  /** Text without white space at either end is its own trim. */
  lemma {:induction false} TrimOfTrimmed(s: string)
    requires s != [] && !IsJsWhitespace(s[0]) && !IsJsWhitespace(s[|s| - 1])
    ensures Trim(s) == s
  {
    assert LeadingSpace(s) == 0 && TrimStart(s) == s;
    assert TrailingSpace(s) == 0;
  }

  /** A command with no space has no email argument. */
  lemma LoginWithoutArgument(text: string)
    requires ' ' !in text
    ensures LoginEmail(text) == None
  {
    JoinThenSplit([text], ' ');
  }

  // ---------------------------------------------------------------- the bot's state

  /** One message handed to Telegram for a chat of an account. */
  datatype Sent = Sent(account: AccountId, chatId: int, message: string)

  /** The messages for every chat of a list, in its order. */
  function Deliveries(account: AccountId, chats: seq<Chat>, message: string): (r: seq<Sent>)
    ensures |r| == |chats|
    ensures forall i :: 0 <= i < |chats| ==> r[i] == Sent(account, chats[i].id, message)
  {
    if chats == [] then []
    else Deliveries(account, chats[..|chats| - 1], message) + [Sent(account, chats[|chats| - 1].id, message)]
  }

  /** The reply of `/login`: a request for a valid address, or the start of the flow. */
  datatype LoginReply = InvalidEmail | LoginStarted(email: string)

  /** The response of `authByEmail`; `polling_id` may be missing. */
  datatype AuthByEmailResponse = AuthByEmailResponse(pollingId: Option<string>)

  /** The bot's view of the configuration (each account's chat list and credential
      emails; the `enabled` flags are a parameter of the Telegram gate above), the module cache (last message, login polling id), the counts
      published to the shared active-chat subject, and the messages sent. */
  class TelegramBot {
    var chats: map<AccountId, seq<Chat>>
    var credentialEmails: map<AccountId, string>
    var lastMessage: Option<string>
    var loginPollingId: Option<string>
    var published: seq<nat>
    var sent: seq<Sent>

    /** The subject starts with the count read at load time, under the account id
        "undefined". */
    constructor (chats: map<AccountId, seq<Chat>>)
      ensures this.chats == chats
      ensures published == [NumberOfActiveChats(chats, UNDEFINED_ACCOUNT)]
      ensures credentialEmails == map[] && lastMessage.None? && loginPollingId.None? && sent == []
    {
      this.chats := chats;
      credentialEmails := map[];
      lastMessage := None;
      loginPollingId := None;
      published := [NumberOfActiveChats(chats, UNDEFINED_ACCOUNT)];
      sent := [];
    }

    function Chats(account: AccountId): seq<Chat>
      reads this
    {
      if account in chats then chats[account] else []
    }

    /** `addChat`: union by id into the account's list, then publish the account's count. */
    method AddChat(account: AccountId, chat: Chat)
      modifies this
      ensures chats == old(chats)[account := UnionById(old(Chats(account)), chat)]
      ensures published == old(published) + [|chats[account]|]
      ensures chat.id in ChatIds(chats[account]) && UniqueChatIds(chats[account])
      ensures old(Chats(account)) == [] ==> chats[account] == [chat]
      ensures unchanged(this`credentialEmails, this`lastMessage, this`loginPollingId, this`sent)
    {
      var before := Chats(account);
      assert ChatIds(before + [chat]) == ChatIds(before) + {chat.id};
      if before == [] {
        assert chat.id !in ChatIds(before);
        AddChatKeepsOrder(before, chat);
      }
      chats := chats[account := UnionById(before, chat)];
      published := published + [NumberOfActiveChats(chats, account)];
    }

    /** `removeChat`: drop the account's chat with that id, if it has one, then publish the
        account's count. */
    method RemoveChat(account: AccountId, chatId: int)
      modifies this
      ensures chats == ChatsAfterRemove(old(chats), account, chatId)
      ensures published == old(published) + [NumberOfActiveChats(chats, account)]
      ensures unchanged(this`credentialEmails, this`lastMessage, this`loginPollingId, this`sent)
    {
      if account in chats && chatId in ChatIds(chats[account]) {
        chats := chats[account := RemoveFirstById(chats[account], chatId)];
      }
      published := published + [NumberOfActiveChats(chats, account)];
    }

    /** `startCommand`: subscribe the chat, then re-send the last message to it if there
        is one. */
    method Start(account: AccountId, chat: Chat)
      modifies this
      ensures chats == old(chats)[account := UnionById(old(Chats(account)), chat)]
      ensures published == old(published) + [|chats[account]|]
      ensures sent == old(sent) + if Truthy(old(lastMessage)) then [Sent(account, chat.id, old(lastMessage).value)] else []
      ensures unchanged(this`credentialEmails, this`lastMessage, this`loginPollingId)
    {
      AddChat(account, chat);
      if Truthy(lastMessage) {
        sent := sent + [Sent(account, chat.id, lastMessage.value)];
      }
    }

    /** `notifyTelegram`: remember the message, then send it to each of the account's chats
        in turn. */
    method NotifyTelegram(account: AccountId, message: string)
      modifies this
      ensures lastMessage == Some(message)
      ensures sent == old(sent) + Deliveries(account, old(Chats(account)), message)
      ensures unchanged(this`chats, this`published, this`credentialEmails, this`loginPollingId)
    {
      lastMessage := Some(message);
      var targets := Chats(account);
      var i := 0;
      while i < |targets|
        invariant 0 <= i <= |targets|
        invariant sent == old(sent) + Deliveries(account, targets[..i], message)
        invariant unchanged(this`chats, this`published, this`credentialEmails, this`loginPollingId)
        invariant lastMessage == Some(message)
      {
        assert targets[..i + 1][..i] == targets[..i];
        sent := sent + [Sent(account, targets[i].id, message)];
        i := i + 1;
      }
      assert targets[..i] == targets;
    }

    /** A failed send to a chat of `account`, with the account passed on. */
    method OnSendError(account: AccountId, chatId: int, code: int)
      modifies this
      ensures chats == SendError(old(chats), account, chatId, code).chats
      ensures published == old(published) + SendError(old(chats), account, chatId, code).published
      ensures unchanged(this`credentialEmails, this`lastMessage, this`loginPollingId, this`sent)
    {
      if code == 403 {
        RemoveChat(account, chatId);
      }
    }

    /** `loginCommand`: a valid address is stored as the credential email of the account
        named by the address itself, and `authByEmail` is called for that account (its k-th
        transmission yields `attempt(k)`; `deviceType` is that account's setting); the polling id of
        a successful response is kept, a failed request only replied to. Without an address
        nothing is stored and no request is made. */
    method LoginCommand(text: string, deviceType: Option<string>, attempt: nat -> Outcome<AuthByEmailResponse, HttpError>)
      returns (reply: LoginReply, request: Option<Request>, requests: nat)
      modifies this
      ensures LoginEmail(text).None? ==> reply == InvalidEmail && request.None? && requests == 0 && unchanged(this)
      ensures LoginEmail(text).Some? ==>
        var email := LoginEmail(text).value;
        reply == LoginStarted(email)
        && request == Some(AuthByEmailRequest(email, deviceType))
        && credentialEmails == old(credentialEmails)[email := email]
        && requests == Post(attempt).attempts
        && loginPollingId == (if Post(attempt).outcome.Done? then Post(attempt).outcome.value.pollingId else old(loginPollingId))
      ensures unchanged(this`chats, this`published, this`lastMessage, this`sent)
    {
      var email := LoginEmail(text);
      if email.None? {
        return InvalidEmail, None, 0;
      }
      credentialEmails := credentialEmails[email.value := email.value];
      reply := LoginStarted(email.value);
      request := Some(AuthByEmailRequest(email.value, deviceType));
      var response := Post(attempt);
      requests := response.attempts;
      if response.outcome.Done? {
        loginPollingId := response.outcome.value.pollingId;
      }
    }
  }
}
